=== FILE: README.md ===
# Referral tracker core in Dafny

This project models the in-memory logic of a hospital referral tracker. The
tracker is a Next.js app that keeps referrals and users in a Google
spreadsheet and signs users in with Google through NextAuth. A referring
department creates a referral for a patient (ward, bed, notes) addressed to
a target department. The target department answers with feedback. The
referrer then marks the referral complete.

Modules:

- `Wrappers`, `Seqs`, `Text`: Option/Result values. They also model the
  JavaScript built-ins the code relies on: `filter`, `flat`,
  `[...new Set(xs)]`, `findIndex`, a stable `sort`, `trim` and the default
  string order.
- `Types`: the `Referral` record, the request bodies, the session user and
  HTTP responses (a status code plus a JSON payload).
- `Sheets` (`src/lib/sheets.ts`): the two sheet tables as `seq<seq<string>>`.
  - The pure parts are functions: the first-match email lookup, the
    header-skipping department de-duplication and the single-row write.
  - The workbook is the class `Spreadsheet`. Its methods are the six
    exported data functions.
  - An empty sheet id stands for a missing `GOOGLE_SHEET_ID`.
- `ReferralsRoute` (`src/app/api/referrals/route.ts`):
  - the row codec (`ReferralRow` / `RowToReferral`);
  - GET, POST and PUT as methods over the store;
  - the as-written row lookup and its corrected version.
- `UsersRoute`, `RegisterRoute` (`src/app/api/users/...`): the lookup and
  registration status-code logic, and registration idempotence.
- `AuthOptions` (`src/lib/authOptions.ts`): the sign-in gate. It also
  covers the JWT enrichment on the class `Token` and the session copy on
  the class `Session`.
- `Dashboard` (`src/app/page.tsx`):
  - the four tab filters, the two badge counts, newest-first ordering, the
    status colours and the POST body enrichment;
  - the class `Home`, holding the component state its handlers update.
- `ViewReferral`, `NewReferral` (the two dialogs):
  - the edit and complete permissions, and the records they send;
  - the target-department options and the form payload.
- `Onboarding` (`src/components/UserOnboarding.tsx`): the four-step
  registration stepper as the class `Onboarding` with guarded transitions,
  plus the sorted, duplicate-free department merge.
- `Lifecycle`: lemmas that follow one referral through the tabs. A referral
  is created (it appears in Sent and Incoming), answered (it moves to the
  referrer's Feedback tab) and completed (it moves to both departments'
  Completed tab). A further lemma shows that a PUT is read back by GET.

Time is not modelled as a clock:

- timestamps are opaque strings;
- the random part of a new id and the clock reading are parameters;
- date parsing in the dashboard sort is a parameter `time: string -> int`.

## Model

| member | source | states |
|---|---|---|
| Seqs.FilterCounts | src/app/page.tsx:110-117 | `filter` keeps every occurrence of each accepted element and no occurrence of any other |
| Seqs.Distinct | src/lib/sheets.ts:149 | `[...new Set(xs)]` keeps exactly the members of `xs`, each once |
| Seqs.DistinctKeepsFirstOccurrenceOrder | src/lib/sheets.ts:149 | de-duplicated values appear in the order of their first occurrence |
| Text.Trim | src/components/UserOnboarding.tsx:100 | `trim()` returns the slice of its input left once all leading and trailing ECMAScript white space is cut: the cut-off parts are white space, a non-empty result starts and ends with another character, and the result is empty exactly when every character is white space |
| Text.BlankIffTrimmedEmpty | src/components/UserOnboarding.tsx:100-104 | a field counts as blank exactly when `trim()` leaves nothing of it |
| Sheets.FindIndexByKey | src/lib/sheets.ts:117 | the index of the first row whose cell A is the key; -1 exactly when no row has it |
| Sheets.UserFromRow | src/lib/sheets.ts:122-126 | a Users row of three or more cells gives its first three as email, name and department; a row without column C gives an empty department |
| Sheets.LookupUser | src/lib/sheets.ts:112-126 | null when the table is absent or no row has the email; otherwise the record of the first matching row, whose email is the one asked for |
| Sheets.DepartmentCells | src/lib/sheets.ts:138-143 | `Users!C:C` gives one entry per Users row: its column C cell, or no cell when that cell is missing or empty |
| Sheets.NoEmptyDepartment | src/lib/sheets.ts:138-149 | no department read from the Users table is "" |
| Sheets.DepartmentList | src/lib/sheets.ts:143-150 | `[]` when the column is absent; otherwise duplicate-free, and it holds exactly the values below the header row |
| Sheets.DepartmentsInFirstOccurrenceOrder | src/lib/sheets.ts:149 | departments are listed in the order of their first occurrence below the header |
| Sheets.Overlay | src/lib/sheets.ts:88-95 | writing cells from column A over a stored row: the written cells come first, the stored cells past them stay, and the row is as long as the longer of the two |
| Sheets.WriteRow | src/lib/sheets.ts:88-95 | a write to `A<n>:L<n>` changes sheet row n only: an existing row becomes the written cells over it, keeping its cells past them; a row past the end is the written row, after a gap of empty rows |
| Sheets.Spreadsheet.GetRows | src/lib/sheets.ts:46-58 | fails with the missing-id error when no sheet id is set; otherwise no rows for an empty table, else every row cut to columns A..L |
| Sheets.Spreadsheet.AppendRow | src/lib/sheets.ts:63-77 | fails and changes nothing without a sheet id; otherwise exactly one row is appended to Referrals and Users is untouched |
| Sheets.Spreadsheet.UpdateRow | src/lib/sheets.ts:82-96 | fails and changes nothing without a sheet id, or for a row before 1 or a row wider than A..L; otherwise only that row changes |
| Sheets.Spreadsheet.GetUserByEmail | src/lib/sheets.ts:101-127 | fails without a sheet id; otherwise the first-match lookup over columns A..C |
| Sheets.Spreadsheet.GetAllDepartments | src/lib/sheets.ts:132-151 | fails without a sheet id; otherwise the de-duplicated non-empty column C cells below the header, never "" |
| Sheets.Spreadsheet.CreateUser | src/lib/sheets.ts:156-177 | fails and changes nothing without a sheet id; otherwise appends exactly `[email, name, department]` and returns the same triple |
| ReferralsRoute.ReferralRow | src/app/api/referrals/route.ts:52-65 | a referral is laid out in twelve cells, columns A..L |
| ReferralsRoute.RowToReferral | src/app/api/referrals/route.ts:22 | every decoded referral has a non-empty id |
| ReferralsRoute.TempIdsDistinct | src/app/api/referrals/route.ts:22 | two data rows without an id get different `temp-id-<i>` ids |
| ReferralsRoute.DecodeReadsColumns | src/app/api/referrals/route.ts:22-33 | column k is read into field k, and a missing cell becomes ""; a missing id becomes `temp-id-<index>` |
| ReferralsRoute.DecodeEncode | src/app/api/referrals/route.ts:21-34 | encoding a referral that has an id and then decoding it gives it back |
| ReferralsRoute.EncodeDecode | src/app/api/referrals/route.ts:21-34 | a twelve-cell row with an id survives decoding then encoding |
| ReferralsRoute.DecodeRows | src/app/api/referrals/route.ts:21-34 | one referral per row below the header, in order; the length is the row count minus one |
| ReferralsRoute.DecodeAppended | src/app/api/referrals/route.ts:21-34 | an appended row is decoded as the last referral, and the earlier ones do not change |
| ReferralsRoute.DecodeProjected | src/lib/sheets.ts:52-57 | reading only columns A..L does not change what GET decodes |
| ReferralsRoute.Get | src/app/api/referrals/route.ts:10-40 | 401 with no session; 500 when the store fails; `[]` for an empty table; otherwise the decoded rows |
| ReferralsRoute.GeneratedId | src/app/api/referrals/route.ts:50 | a new id starts with `REF-` |
| ReferralsRoute.NewReferralRow | src/app/api/referrals/route.ts:52-65 | the POST row has twelve cells: the new id first, status Pending, empty feedback and author, and created = updated = now |
| ReferralsRoute.PostRowRoundTrip | src/app/api/referrals/route.ts:52-65 | the POST row decodes to the posted fields with status Pending, empty feedback and feedback author, and createdAt = updatedAt |
| ReferralsRoute.Post | src/app/api/referrals/route.ts:42-72 | 401 with no write when there is no session; 500 with no write when the store fails; otherwise exactly one appended row, then 201 |
| ReferralsRoute.FeedbackClinician | src/app/api/referrals/route.ts:101 | as written: with feedback, the author is the session name, or N/A without one, and never empty; without feedback it is the request's author |
| ReferralsRoute.UpdatedRow | src/app/api/referrals/route.ts:90-104 | the PUT row has twelve cells: columns A..I as the request sent them, then the author rule, the request's createdAt and now |
| ReferralsRoute.UpdatedRowLayout | src/app/api/referrals/route.ts:90-104 | PUT keeps the request's id, createdAt and other fields and stamps updatedAt. The feedback author is the session name (or N/A) whenever feedback is non-empty, and the request's value otherwise |
| ReferralsRoute.RowIndexAsWritten | src/app/api/referrals/route.ts:84 | -1 only for an absent table; 0 when no row has the id; otherwise the 1-based row of the first match |
| ReferralsRoute.UnknownIdMissesNotFoundBranch | src/app/api/referrals/route.ts:84-88 | an unknown id in a present table yields row 0, not -1 |
| ReferralsRoute.SheetRowOf | src/app/api/referrals/route.ts:84-88 | corrected lookup: none exactly when the table is absent or no row has the id; otherwise the 1-based row of the first match |
| ReferralsRoute.FindIndexProjected | src/app/api/referrals/route.ts:83-84 | cutting rows to A..L does not move the first match |
| ReferralsRoute.Put | src/app/api/referrals/route.ts:74-112 | as written: 401 without a session; 404 only for an empty table; 500 for an unknown id (the write to row 0 fails); otherwise the first matching row is rewritten |
| ReferralsRoute.FeedbackClinicianCorrected | src/app/api/referrals/route.ts:100-101 | corrected: the author is the session name (or N/A) exactly when the feedback is non-empty and differs from the stored feedback; cleared or unchanged feedback keeps the request's author |
| ReferralsRoute.CompletingOverwritesFeedbackAuthor | src/app/api/referrals/route.ts:101 | as written, completing a referral credits its feedback to the completer |
| ReferralsRoute.CorrectedKeepsAuthorWhenFeedbackUnchanged | src/app/api/referrals/route.ts:100-101 | corrected: completing keeps every stored field except status and updatedAt |
| ReferralsRoute.PutCorrected | src/app/api/referrals/route.ts:74-112 | corrected PUT: an unknown id gives 404 with no write; a match rewrites that row with the corrected author rule |
| UsersRoute.GetUser | src/app/api/users/route.ts:4-33 | 400 for a missing or empty email; 500 when the store fails; 404 for an unknown email; otherwise the stored record; no session check |
| RegisterRoute.LookupFindsIffCounted | src/app/api/users/register/route.ts:17-18 | the lookup finds an email exactly when some Users row has it |
| RegisterRoute.RegistrationKeepsOneRowPerEmail | src/app/api/users/register/route.ts:17-28 | registration creates the email's row when missing and never adds a second one |
| RegisterRoute.RegisteringTwiceLeavesOneRow | src/app/api/users/register/route.ts:17-28 | two registrations of the same new email leave exactly one row; the second changes nothing |
| RegisterRoute.Register | src/app/api/users/register/route.ts:4-36 | 400 with no lookup and no write for an empty field; 500 when the store fails; 200 with the stored record and no write for a known email; 201 with the submitted triple after one append otherwise |
| AuthOptions.SignInAllowed | src/lib/authOptions.ts:22-32 | sign-in is refused without an email, and allowed exactly when a Users row has the email |
| AuthOptions.SignIn | src/lib/authOptions.ts:22-32 | a store failure refuses; otherwise the decision is the Users-table gate |
| AuthOptions.StoredDepartment | src/lib/authOptions.ts:39 | the token's department is left unset exactly when the user's column C is empty, and is that cell otherwise |
| AuthOptions.HardCodedUsersAreNotAdmitted | src/lib/authOptions.ts:7-31 | every address of the hard-coded map is refused by any Users table without a row for it |
| AuthOptions.JwtClaims | src/lib/authOptions.ts:33-43 | without an email, or with a department, the token is unchanged; on a miss it is unchanged; on a hit, the name comes from the first matching row and so does the department, which stays unset when that row's column C is empty |
| AuthOptions.JwtIsIdempotent | src/lib/authOptions.ts:35-42 | running the callback again on its own result changes nothing |
| AuthOptions.SetDepartmentIsSticky | src/lib/authOptions.ts:35 | once a non-empty department is set, later tables are never consulted |
| AuthOptions.Token.Jwt | src/lib/authOptions.ts:33-43 | the token becomes the enriched claims; a failing lookup leaves it unchanged |
| AuthOptions.Session.FromToken | src/lib/authOptions.ts:44-51 | an existing session user takes the token's name and department; an absent one stays absent |
| Dashboard.InTab | src/app/page.tsx:110-117 | a listed referral needs a session department and a tab in 0..3; only tab 3 lists completed referrals; of the open tabs only tab 2 lists referrals with feedback |
| Dashboard.TabList | src/app/page.tsx:110-117 | a tab lists, in order, exactly the referrals its predicate accepts, each as often as it occurs in the list; it is empty exactly when none does |
| Dashboard.TabContents | src/app/page.tsx:111-115 | Incoming, Sent, Feedback and Completed in terms of status, departments and feedback |
| Dashboard.OpenTabsExcludeCompleted | src/app/page.tsx:111-112 | tabs 0 to 2 never list a completed referral |
| Dashboard.FeedbackTabIsDisjoint | src/app/page.tsx:113-115 | Feedback shares nothing with Sent or with Incoming |
| Dashboard.SentReferralsSplitByFeedback | src/app/page.tsx:114-115 | an open referral I sent is in exactly one of Sent and Feedback |
| Dashboard.EmptyTabs | src/app/page.tsx:110-117 | an index outside 0..3, or a session without a department, lists nothing |
| Dashboard.IncomingCount | src/app/page.tsx:107 | the Incoming badge equals the length of the Incoming tab |
| Dashboard.FeedbackCount | src/app/page.tsx:108 | the Feedback badge equals the length of the Feedback tab |
| Dashboard.AtLeastAsRecent | src/app/page.tsx:40 | the comparator is a total preorder |
| Dashboard.NewestFirst | src/app/page.tsx:40 | the sorted list is a permutation of the fetched one, ordered newest first |
| Dashboard.StatusColor | src/app/page.tsx:88-89 | Pending is warning, Viewed is info, Completed is success; a member name of `Object.prototype` (such as `toString`) yields that inherited member; any other status is default |
| Dashboard.PostBody | src/app/page.tsx:61 | the body carries the form's four fields, the session's department (or nothing) and the session's name |
| Dashboard.Home.constructor | src/app/page.tsx:19-26 | the initial component state |
| Dashboard.Home.FetchReferrals | src/app/page.tsx:34-47 | success replaces the list, newest first, and clears the error; failure keeps the list and sets the message; loading ends |
| Dashboard.Home.HandleTabChange | src/app/page.tsx:53 | only the tab index changes |
| Dashboard.Home.HandleOpenViewModal | src/app/page.tsx:54 | selects the referral and opens the view dialog |
| Dashboard.Home.CloseViewModal | src/app/page.tsx:220 | closes the view dialog and clears the selection |
| Dashboard.Home.HandleSaveNewReferral | src/app/page.tsx:56-69 | posts the enriched body; success closes the dialog and refetches the list as `FetchReferrals` does; failure sets the error and changes nothing else |
| Dashboard.Home.HandleUpdateReferral | src/app/page.tsx:71-85 | sends the referral unchanged; success closes the dialog, clears the selection and refetches the list as `FetchReferrals` does; failure sets the error and changes nothing else |
| ViewReferral.CanEditFeedback | src/components/ViewReferralModal.tsx:41 | an editable referral is never one the Completed tab lists, and without feedback it is in my Incoming tab |
| ViewReferral.CanComplete | src/components/ViewReferralModal.tsx:42 | Complete is offered only on the tab whose referrals all have feedback and are still open |
| ViewReferral.WithFeedback | src/components/ViewReferralModal.tsx:44-47 | Save Feedback sends the referral with the edited feedback and status Viewed, every other field unchanged |
| ViewReferral.AsCompleted | src/components/ViewReferralModal.tsx:49-52 | Complete sends the referral with status Completed and its stored feedback, every other field unchanged |
| ViewReferral.SavedFeedbackStaysEditable | src/components/ViewReferralModal.tsx:41-50 | saved feedback keeps the referral editable; completing ends editing |
| ViewReferral.ViewReferralModal.constructor | src/components/ViewReferralModal.tsx:31 | the editor starts empty |
| ViewReferral.ViewReferralModal.ReferralChanged | src/components/ViewReferralModal.tsx:33-37 | a new referral loads its stored feedback into the editor |
| ViewReferral.ViewReferralModal.EditFeedback | src/components/ViewReferralModal.tsx:80-91 | typing changes the editor text only when feedback may be edited |
| ViewReferral.ViewReferralModal.Save | src/components/ViewReferralModal.tsx:39-47 | a record is sent exactly when a referral is shown and it is open for my department; that record is `WithFeedback` |
| ViewReferral.ViewReferralModal.MarkComplete | src/components/ViewReferralModal.tsx:39-52 | a record is sent exactly when a referral is shown and the active tab is Feedback; it keeps the stored feedback |
| ViewReferral.UnsavedEditIsDropped | src/components/ViewReferralModal.tsx:49-52 | text typed but not saved is not in the completed record |
| NewReferral.TargetOptions | src/components/NewReferralModal.tsx:87 | the options are the fetched departments other than my own, in order and each as often as it was fetched; all of them when I have no department |
| NewReferral.NewReferralForm.constructor | src/components/NewReferralModal.tsx:30-35 | every field is empty and loading is on |
| NewReferral.NewReferralForm.FetchDepartments | src/components/NewReferralModal.tsx:37-53 | loading ends whether or not the fetch failed; a reply replaces the department list; entered fields are kept |
| NewReferral.NewReferralForm.Edit | src/components/NewReferralModal.tsx:75-93 | each handler changes its one field |
| NewReferral.NewReferralForm.Submit | src/components/NewReferralModal.tsx:55-63 | emits exactly the four entered fields |
| NewReferral.EmptyFormIsSubmitted | src/components/NewReferralModal.tsx:55-63 | no validation: an untouched form submits four empty fields |
| Onboarding.Alphabetical | src/components/UserOnboarding.tsx:82 | the default string order is a total preorder |
| Onboarding.MergeDepartments | src/components/UserOnboarding.tsx:81-82 | the options are the union of the built-in and fetched lists, with no duplicates, in strictly increasing order |
| Text.StrLeAntisymmetric | src/components/UserOnboarding.tsx:82 | two strings that each sort no later than the other are equal |
| Onboarding.StrictlyAlphabeticalIsUnique | src/components/UserOnboarding.tsx:82 | a list sorted strictly alphabetically is determined by its members |
| Onboarding.MergeIgnoresFetchOrder | src/components/UserOnboarding.tsx:81-82 | the option list depends only on which departments were fetched, not on their order or repetition |
| Onboarding.MergeKeepsCommonDepartments | src/components/UserOnboarding.tsx:81-82 | every built-in department stays an option, so there are at least 22 |
| Onboarding.Onboarding.constructor | src/components/UserOnboarding.tsx:61-69 | step 0, name and email from the account, no department, built-in options |
| Onboarding.Onboarding.Open | src/components/UserOnboarding.tsx:89-96 | opening resets name and email from the account and keeps the department |
| Onboarding.Onboarding.DepartmentsFetched | src/components/UserOnboarding.tsx:75-87 | a successful fetch replaces the options with the merged list; a failed one keeps them |
| Onboarding.Onboarding.EditName | src/components/UserOnboarding.tsx:195-203 | typing changes only the name |
| Onboarding.Onboarding.EditEmail | src/components/UserOnboarding.tsx:204-213 | the email can be typed only when the account supplied none |
| Onboarding.Onboarding.ChooseDepartment | src/components/UserOnboarding.tsx:230 | clearing the choice gives "" |
| Onboarding.Onboarding.NextRefused | src/components/UserOnboarding.tsx:100-107 | Next is refused only at steps 1 and 2, and at step 1 only for a blank name or email |
| Onboarding.Onboarding.HandleNext | src/components/UserOnboarding.tsx:99-110 | from step 0 or 1 while not loading: a blank name or email at step 1 sets "Please fill in all required fields" and stays; otherwise the error clears and the step advances by one |
| Onboarding.Onboarding.HandleBack | src/components/UserOnboarding.tsx:112-115 | from step 1 or 2 while not loading: one step back, error cleared |
| Onboarding.Onboarding.HandleSubmit | src/components/UserOnboarding.tsx:117-156 | from step 2 with Submit enabled: demo mode or a registered reply moves to step 3 and hands on the record; failure keeps step 2 and shows the message; loading ends; the posted body has no empty field |
| Onboarding.EnabledSubmitPassesRouteValidation | src/components/UserOnboarding.tsx:333 | the fields of an enabled submit never trip the register route's 400 check; `HandleSubmit` uses this for the body it posts |
| Lifecycle.DecodeAfterWrite | src/lib/sheets.ts:88-95 | after a twelve-cell write to a data row, GET returns the old list with that one entry replaced |
| Seqs.FilterAppend | src/app/page.tsx:110-117 | filtering a concatenation gives the concatenation of the filtered parts |
| Lifecycle.PostExtendsEachTab | src/app/api/referrals/route.ts:52-66 | after a POST every tab is the old tab, unchanged, followed by the new referral exactly when that tab accepts it |
| Lifecycle.CreatedReferralIsSentAndIncoming | src/app/api/referrals/route.ts:52-66 | a new referral is read back last, Pending, in the sender's Sent and the target's Incoming tab, and in neither one's Feedback tab |
| Lifecycle.FeedbackReachesReferrer | src/components/ViewReferralModal.tsx:44-47 | non-empty feedback moves the referral to the referrer's Feedback tab and out of Incoming and Sent, credited to the saver |
| Lifecycle.EmptyFeedbackStaysIncoming | src/components/ViewReferralModal.tsx:44-47 | saving an empty editor marks the referral Viewed but leaves it in Incoming |
| Lifecycle.CompletionReachesCompletedTab | src/components/ViewReferralModal.tsx:49-52 | completing from the Feedback tab lists the referral in both departments' Completed tab only; with the corrected author rule it keeps its feedback author |
| Lifecycle.PutIsSeenByGet | src/app/api/referrals/route.ts:84-106 | GET after PUT lists the rewritten referral in place of the old one |

## Left out

- The Google Sheets client, credential parsing and the module-level client cache (`src/lib/sheets.ts:10-41`) are foreign calls. The store is the `Spreadsheet` object and its two tables.
- NextAuth and Google OAuth wiring, and `getServerSession`. The session and the profile are plain inputs. Handlers that run in the server use the copy of the callbacks in `src/app/api/auth/[...nextauth]/route.ts`, which is not part of this model. In that copy the session callback copies name and department only when they are strings.
- `fetch`, JSON parsing and `NextResponse`. A reply is a status code plus a payload, or a thrown error. A malformed request body is not modelled.
- ReferralsRoute.Put: the request body is parsed before the session check. A malformed body therefore gives 500 even without a session. The model takes the parsed referral as input.
- `new Date`, `toISOString`, `Math.random` and `toLocaleDateString`: times and the random id part are parameters, and createdAt and updatedAt are opaque strings.
- Dashboard.NewestFirst: date parsing is the parameter `time`. An unparsable date gives `NaN`, which makes the comparator inconsistent; that case is not modelled. Stability of the sort is not stated.
- Onboarding.MergeDepartments: orders strings by character code point. JavaScript orders by UTF-16 unit, which differs only for characters outside the Basic Multilingual Plane.
- NewReferral.NewReferralForm.FetchDepartments: a non-array reply (for example the 500 body) reaches `setDepartments` in the source and breaks the option list; the model takes only a list or a failure.
- Sheets.Spreadsheet.AppendRow: the Sheets API appends after the last row of the detected table, parses cells as USER_ENTERED, and drops trailing empty cells when reading. The model appends at the end and stores the strings as given.
- Sheets.Spreadsheet.UpdateRow: the write uses USER_ENTERED (`src/lib/sheets.ts:91`), so a value such as `=1+1`, `0012` or a date-like string is stored as a formula, number or date. The model stores every string verbatim.
- Sheets.Spreadsheet.CreateUser: the same USER_ENTERED parsing applies (`src/lib/sheets.ts:166`) and is not modelled. `ReferralsRoute.PostRowRoundTrip`, `Lifecycle.DecodeAfterWrite`, `Lifecycle.PutIsSeenByGet` and `RegisterRoute.RegisteringTwiceLeavesOneRow` hold only for values the Sheets API keeps verbatim.
- Sheets.Spreadsheet: the only store failures modelled are a missing sheet id and an out-of-range update row. Bad credentials, network errors, quota limits and other API rejections are not modelled; in the source each gives the route's 500 reply.
- `setTimeout` delays and the demo-mode latency in the onboarding dialog; the `onComplete` call is modelled as the recorded `completedWith`.
- All JSX and MUI rendering, the theme, layout and config files. Buttons that the rendering hides or disables appear as preconditions: Next at steps 0 and 1 while not loading (`HandleNext`); Back at steps 1 and 2 while not loading (`HandleBack`); Complete Registration at step 2 when `SubmitEnabled` holds (`HandleSubmit`). In the detail dialog they appear as a `None` result instead (`Save`, `MarkComplete`).
- Onboarding.Onboarding.HandleNext: the department check of `handleNext` (`src/components/UserOnboarding.tsx:104-107`) is kept in `NextRefused`, but Next is never rendered at step 2, so no reachable call meets it.
- `src/app/api/departments/route.ts` forwards `getAllDepartments`, and that call is modelled by `Spreadsheet.GetAllDepartments`.
- Dashboard.Home.HandleSaveNewReferral: the refetch after a success (`src/app/page.tsx:65`) is not awaited. The model runs it to completion inside the handler. That gives the same final state in either order, because the refetch writes only the list, error and loading flag. Other user events that land while it is in flight are not covered.
- Dashboard.Home.HandleUpdateReferral: the same holds for its refetch (`src/app/page.tsx:81`). The dialog is closed before the refetch settles, and events that land in between are not covered.
- AuthOptions.JwtClaims: a column C cell that is present but empty is treated like a missing one. The Sheets API drops trailing empty cells, and column C is the last one read, so it never comes back as "".
- Concurrent appends and updates to the shared sheet are not modelled. The source has no coordination between them.

## Findings

| source | as written | input that shows it | evidently intended | confidence | as-written member | corrected member |
|---|---|---|---|---|---|---|
| src/app/api/referrals/route.ts:84-88 | `findIndex(...) + 1` is 0 for an unknown id, so the 404 branch fires only for an absent table. The write then goes to row 0, which the API rejects, giving 500 | table `[["ID"],["REF-1"]]`, id `REF-2`: the index is 0 | 404 "Referral ID not found" for an unknown id, with no write | not executed | ReferralsRoute.UnknownIdMissesNotFoundBranch | ReferralsRoute.SheetRowOf |
| src/app/api/referrals/route.ts:101 | the feedback author is reset to the session user whenever feedback is non-empty, including when the referrer marks the referral complete | stored feedback "seen" by "Dr Target"; "Dr Ref" completes it; column J becomes "Dr Ref" | the author changes only when feedback is added or changed, as the comment on line 100 says | not executed | ReferralsRoute.CompletingOverwritesFeedbackAuthor | ReferralsRoute.CorrectedKeepsAuthorWhenFeedbackUnchanged |

=== FILE: auth_options.dfy ===
/**
 * The NextAuth callbacks (`src/lib/authOptions.ts`): sign-in is allowed only
 * for emails present in the Users table; the JWT callback copies the stored
 * name and department into the token once; the session callback copies them
 * onto `session.user`.
 */
module AuthOptions {
  import opened Wrappers
  import opened Types
  import opened Sheets

  /** The hard-coded email-to-department map; no callback reads it. */
  const UserDatabase: map<string, string> := map[
    "duncanmillerza@gmail.com" := "Cardiology",
    "another.user@gmail.com" := "Neurology",
    "a.third.user@domain.com" := "Oncology"]

  /** The sign-in decision once the Users table has been read. */
  function SignInAllowed(profileEmail: Option<string>, users: Option<Table>): (allowed: bool)
    ensures profileEmail.None? || profileEmail.value == "" ==> !allowed
    ensures allowed <==>
      (profileEmail.Some? && profileEmail.value != "" && users.Some? &&
       exists j :: 0 <= j < |users.value| && HasKey(users.value[j], profileEmail.value))
  {
    profileEmail.Some? && profileEmail.value != "" && LookupUser(users, profileEmail.value).Some?
  }

  /** `signIn`: a failing lookup propagates, which refuses the sign-in. */
  method SignIn(db: Spreadsheet, profileEmail: Option<string>) returns (allowed: bool)
    ensures db.sheetId == "" ==> !allowed
    ensures db.sheetId != "" ==> allowed == SignInAllowed(profileEmail, Values(Project(db.users, UserColumns)))
  {
    if profileEmail.None? || profileEmail.value == "" {
      return false;
    }
    var user := db.GetUserByEmail(profileEmail.value);
    if user.Err? {
      return false;
    }
    allowed := user.value.Some?;
  }

  /**
   * Being in the hard-coded map grants nothing: every address of it is
   * refused by any Users table that has no row for it.
   */
  lemma HardCodedUsersAreNotAdmitted(email: string, users: Option<Table>)
    requires email in UserDatabase
    requires users.Some? ==> forall j :: 0 <= j < |users.value| ==> !HasKey(users.value[j], email)
    ensures !SignInAllowed(Some(email), users)
  {
  }

  /** The token fields the callbacks use; `email == ""` stands for an absent email. */
  datatype Claims = Claims(email: string, name: string, department: Option<string>)

  /** Whether `jwt` looks the user up: an email and no (or an empty) department. */
  predicate NeedsLookup(c: Claims) {
    c.email != "" && (c.department.None? || c.department.value == "")
  }

  /**
   * The department `jwt` copies from a user record: an empty column C means
   * the Sheets API left the trailing cell out, so `user.department` is
   * `undefined` and the token's department stays unset.
   */
  function StoredDepartment(u: UserRecord): (d: Option<string>)
    ensures d.None? <==> u.department == ""
    ensures d.Some? ==> d.value == u.department
  {
    if u.department == "" then None else Some(u.department)
  }

  /** The token `jwt` returns, given what the Users table holds. */
  function JwtClaims(c: Claims, users: Option<Table>): (r: Claims)
    ensures r.email == c.email
    ensures !NeedsLookup(c) ==> r == c
    ensures NeedsLookup(c) && LookupUser(users, c.email).None? ==> r == c
    ensures NeedsLookup(c) && users.Some? && (exists j :: 0 <= j < |users.value| && HasKey(users.value[j], c.email)) ==>
      exists j ::
        && 0 <= j < |users.value| && HasKey(users.value[j], c.email)
        && (forall k :: 0 <= k < j ==> !HasKey(users.value[k], c.email))
        && r.name == Cell(users.value[j], 1)
        && (Cell(users.value[j], 2) == "" ==> r.department.None?)
        && (Cell(users.value[j], 2) != "" ==> r.department == Some(Cell(users.value[j], 2)))
  {
    if !NeedsLookup(c) then c
    else match LookupUser(users, c.email)
      case None => c
      case Some(u) => c.(name := u.name, department := StoredDepartment(u))
  }

  /** `jwt` runs on every request; running it again on its own result changes nothing. */
  lemma JwtIsIdempotent(c: Claims, users: Option<Table>)
    ensures JwtClaims(JwtClaims(c, users), users) == JwtClaims(c, users)
  {
  }

  /** A token whose department is set is never looked up again, whatever the table now says. */
  lemma SetDepartmentIsSticky(c: Claims, users: Option<Table>, later: Option<Table>)
    requires c.email != ""
    requires LookupUser(users, c.email).Some? && LookupUser(users, c.email).value.department != ""
    ensures JwtClaims(JwtClaims(c, users), later) == JwtClaims(c, users)
  {
  }

  /** The JWT token, updated in place by the callback. */
  class Token {
    var email: string
    var name: string
    var department: Option<string>

    function Contents(): Claims
      reads this
    {
      Claims(email, name, department)
    }

    constructor (email: string, name: string, department: Option<string>)
      ensures Contents() == Claims(email, name, department)
    {
      this.email := email;
      this.name := name;
      this.department := department;
    }

    /** `jwt`: `ok` is false when the lookup throws, which leaves the token untouched. */
    method Jwt(db: Spreadsheet) returns (ok: bool)
      modifies this
      ensures !NeedsLookup(old(Contents())) ==> ok && Contents() == old(Contents())
      ensures NeedsLookup(old(Contents())) && db.sheetId == "" ==> !ok && Contents() == old(Contents())
      ensures db.sheetId != "" ==> ok && Contents() == JwtClaims(old(Contents()), Values(Project(db.users, UserColumns)))
    {
      if email == "" || (department.Some? && department.value != "") {
        return true;
      }
      var user := db.GetUserByEmail(email);
      if user.Err? {
        return false;
      }
      if user.value.Some? {
        name := user.value.value.name;
        department := StoredDepartment(user.value.value);
      }
      ok := true;
    }
  }

  /** The session object handed to the client. */
  class Session {
    var user: Option<SessionUser>

    constructor (user: Option<SessionUser>)
      ensures this.user == user
    {
      this.user := user;
    }

    /** `session`: copies the token's name and department onto an existing user. */
    method FromToken(token: Token)
      modifies this
      ensures old(user).None? ==> user.None?
      ensures old(user).Some? ==> user == Some(SessionUser(token.name, token.department))
    {
      if user.Some? {
        user := Some(SessionUser(token.name, token.department));
      }
    }
  }
}

=== FILE: lifecycle.dfy ===
/**
 * How one referral moves across the dashboard tabs: created by the referring
 * department, answered by the target department, completed by the referrer.
 * Each step goes through the same functions the components and the route use.
 */
module Lifecycle {
  import opened Wrappers
  import opened Seqs
  import opened Types
  import opened Sheets
  import opened ReferralsRoute
  import opened Dashboard
  import opened ViewReferral

  /** GET reads only columns A..L of a row. */
  lemma DecodeReadsFirstColumns(stored: Row, row: Row, index: nat)
    requires |row| == ReferralColumns && Columns(stored, |row|) == row
    ensures RowToReferral(stored, index) == RowToReferral(row, index)
  {
    assert forall k :: 0 <= k < ReferralColumns ==> Cell(stored, k) == Cell(row, k) by {
      if |stored| > |row| {
        assert stored[..|row|] == row;
      }
    }
  }

  /** After a 12-cell write to data row `n`, GET returns the old list with that one entry replaced. */
  lemma DecodeAfterWrite(rows: Table, n: nat, row: Row)
    requires 2 <= n <= |rows| && |row| == ReferralColumns
    ensures DecodeRows(WriteRow(rows, n, row)) == DecodeRows(rows)[n - 2 := RowToReferral(row, n - 2)]
  {
    var t := WriteRow(rows, n, row);
    var a, b := DecodeRows(t), DecodeRows(rows)[n - 2 := RowToReferral(row, n - 2)];
    forall i | 0 <= i < |a| ensures a[i] == b[i] {
      if i == n - 2 {
        DecodeReadsFirstColumns(t[n - 1], row, i);
      }
    }
  }

  /**
   * A referral created from department `from` shows up last in GET's list,
   * in the sender's Sent tab and in the target department's Incoming tab,
   * and in neither one's Feedback tab.
   */
  lemma CreatedReferralIsSentAndIncoming(rows: Table, input: NewReferralInput, from: string, name: string,
                                         millis: nat, random: nat, now: string)
    requires rows != [] && random < 1000
    ensures var body := PostBody(input, Some(from), name);
      var id := GeneratedId(millis, random);
      var listed := DecodeRows(rows + [NewReferralRow(body, id, now)]);
      && listed == DecodeRows(rows) + [CreatedReferral(body, id, now)]
      && listed[|listed| - 1].status == Pending
      && listed[|listed| - 1] in TabList(listed, 1, Some(from))
      && listed[|listed| - 1] in TabList(listed, 0, Some(input.targetDepartment))
      && listed[|listed| - 1] !in TabList(listed, 2, Some(from))
      && listed[|listed| - 1] !in TabList(listed, 2, Some(input.targetDepartment))
  {
    var body := PostBody(input, Some(from), name);
    var id := GeneratedId(millis, random);
    DecodeAppended(rows, NewReferralRow(body, id, now));
    PostRowRoundTrip(body, id, now, |rows| - 1);
  }

  /**
   * A POST changes every tab the same way: the new referral is added at the
   * end of exactly the tabs that accept it, and every other entry stays put.
   */
  lemma PostExtendsEachTab(rows: Table, body: NewReferralRequest, id: string, now: string,
                           tab: int, department: Option<string>)
    requires rows != [] && id != ""
    ensures var created := CreatedReferral(body, id, now);
      TabList(DecodeRows(rows + [NewReferralRow(body, id, now)]), tab, department) ==
        TabList(DecodeRows(rows), tab, department) + (if InTab(created, tab, department) then [created] else [])
  {
    var created := CreatedReferral(body, id, now);
    DecodeAppended(rows, NewReferralRow(body, id, now));
    PostRowRoundTrip(body, id, now, |rows| - 1);
    FilterAppend(DecodeRows(rows), [created], r => InTab(r, tab, department));
    assert [created][1..] == [];
  }

  /**
   * Saving non-empty feedback from the target department moves the referral
   * out of the target's Incoming tab and the referrer's Sent tab into the
   * referrer's Feedback tab, credited to the saving user.
   */
  lemma FeedbackReachesReferrer(r: Referral, user: SessionUser, text: string, now: string, index: nat)
    requires CanEditFeedback(r, user.department) && r.id != "" && text != ""
    ensures var stored := RowToReferral(UpdatedRow(WithFeedback(r, text), user, now), index);
      && stored.status == Viewed && stored.feedback == text
      && InTab(stored, 2, Some(r.referringDepartment))
      && !InTab(stored, 1, Some(r.referringDepartment))
      && !InTab(stored, 0, user.department)
      && stored.feedbackClinician == (if user.name != "" then user.name else "N/A")
  {
    UpdatedRowLayout(WithFeedback(r, text), user, now, index);
  }

  /** Saving an empty editor marks the referral Viewed but leaves it in the target's Incoming tab. */
  lemma EmptyFeedbackStaysIncoming(r: Referral, user: SessionUser, now: string, index: nat)
    requires CanEditFeedback(r, user.department) && r.id != ""
    ensures var stored := RowToReferral(UpdatedRow(WithFeedback(r, ""), user, now), index);
      && stored.status == Viewed
      && InTab(stored, 0, user.department)
      && stored.feedbackClinician == r.feedbackClinician
  {
    UpdatedRowLayout(WithFeedback(r, ""), user, now, index);
  }

  /**
   * Completing from the Feedback tab (with the corrected author rule) moves
   * the referral to both departments' Completed tab and out of every other
   * tab, keeping its feedback and the feedback's author.
   */
  lemma CompletionReachesCompletedTab(r: Referral, user: SessionUser, now: string, index: nat)
    requires InTab(r, 2, user.department) && r.id != ""
    ensures var stored := RowToReferral(UpdatedRowCorrected(AsCompleted(r), ReferralRow(r), user, now), index);
      && stored.status == Completed && stored.feedback == r.feedback
      && stored.feedbackClinician == r.feedbackClinician
      && InTab(stored, 3, Some(r.referringDepartment))
      && InTab(stored, 3, Some(r.targetDepartment))
      && forall tab, d :: 0 <= tab <= 2 ==> !InTab(stored, tab, d)
  {
    CorrectedKeepsAuthorWhenFeedbackUnchanged(r, user, now, index);
  }

  /**
   * End to end through the store: after PUT rewrites the referral's row,
   * GET lists the rewritten referral in place of the old one.
   */
  lemma PutIsSeenByGet(rows: Table, update: Referral, user: SessionUser, now: string)
    requires update.id != ""
    requires 1 <= FindIndexByKey(rows, update.id)
    ensures var i := FindIndexByKey(rows, update.id);
      var stored := update.(feedbackClinician := FeedbackClinician(update, user), updatedAt := now);
      DecodeRows(WriteRow(rows, i + 1, UpdatedRow(update, user, now))) == DecodeRows(rows)[i - 1 := stored]
  {
    var i := FindIndexByKey(rows, update.id);
    DecodeAfterWrite(rows, i + 1, UpdatedRow(update, user, now));
    UpdatedRowLayout(update, user, now, i - 1);
  }
}

=== FILE: new_referral_modal.dfy ===
/**
 * The new-referral form (`src/components/NewReferralModal.tsx`): the
 * target-department options and the payload Save emits.
 */
module NewReferral {
  import opened Wrappers
  import opened Seqs
  import opened Types
  import opened Dashboard

  /** The target options: the fetched departments other than the user's own, in order. */
  function TargetOptions(departments: seq<string>, userDepartment: Option<string>): (options: seq<string>)
    ensures IsSubsequence(options, departments)
    ensures forall d :: d in options <==> d in departments && !Mine(d, userDepartment)
    ensures forall d :: multiset(options)[d] == if Mine(d, userDepartment) then 0 else multiset(departments)[d]
    ensures userDepartment.None? ==> options == departments
  {
    FilterIsSubsequence(departments, d => !Mine(d, userDepartment));
    FilterCounts(departments, d => !Mine(d, userDepartment));
    Filter(departments, d => !Mine(d, userDepartment))
  }

  /** The editable fields of the form. */
  datatype Field = WardField | BedField | TargetField | NotesField

  class NewReferralForm {
    const userDepartment: Option<string>
    var ward: string
    var bed: string
    var targetDepartment: string
    var notes: string
    var departments: seq<string>
    var loading: bool

    /** Every field starts empty and the department list is loading. */
    constructor (userDepartment: Option<string>)
      ensures this.userDepartment == userDepartment
      ensures ward == "" && bed == "" && targetDepartment == "" && notes == ""
      ensures departments == [] && loading
    {
      this.userDepartment := userDepartment;
      ward := "";
      bed := "";
      targetDepartment := "";
      notes := "";
      departments := [];
      loading := true;
    }

    /** The options the select offers. */
    function Options(): seq<string>
      reads this
    {
      TargetOptions(departments, userDepartment)
    }

    /**
     * `fetchDepartments` on open: `reply` is the parsed list, or `None` when
     * the request or the JSON parse threw. Loading ends either way, and the
     * entered fields are kept.
     */
    method FetchDepartments(reply: Option<seq<string>>)
      modifies this
      ensures !loading
      ensures departments == if reply.Some? then reply.value else old(departments)
      ensures ward == old(ward) && bed == old(bed) && targetDepartment == old(targetDepartment) && notes == old(notes)
    {
      loading := true;
      if reply.Some? {
        departments := reply.value;
      }
      loading := false;
    }

    /** An `onChange` handler. */
    method Edit(field: Field, value: string)
      modifies this
      ensures ward == (if field == WardField then value else old(ward))
      ensures bed == (if field == BedField then value else old(bed))
      ensures targetDepartment == (if field == TargetField then value else old(targetDepartment))
      ensures notes == (if field == NotesField then value else old(notes))
      ensures departments == old(departments) && loading == old(loading)
    {
      match field
      case WardField => ward := value;
      case BedField => bed := value;
      case TargetField => targetDepartment := value;
      case NotesField => notes := value;
    }

    /** `handleSubmit`: the four fields as entered, empty or not; no referring fields. */
    method Submit() returns (input: NewReferralInput)
      ensures input.ward == ward && input.bed == bed
      ensures input.targetDepartment == targetDepartment && input.notes == notes
    {
      input := NewReferralInput(ward, bed, targetDepartment, notes);
    }
  }

  /** Save performs no validation: a form submitted untouched emits four empty fields. */
  method EmptyFormIsSubmitted(userDepartment: Option<string>) returns (input: NewReferralInput)
    ensures input == NewReferralInput("", "", "", "")
  {
    var form := new NewReferralForm(userDepartment);
    input := form.Submit();
  }
}

=== FILE: page.dfy ===
/**
 * The dashboard (`src/app/page.tsx`): the four tab filters, the two badge
 * counts, newest-first ordering, the status colours, the POST body
 * enrichment, and the component state its handlers update.
 */
module Dashboard {
  import opened Wrappers
  import opened Seqs
  import opened Types

  /** `field === MY_DEPARTMENT`: an absent department equals no string. */
  predicate Mine(field: string, department: Option<string>) {
    department.Some? && field == department.value
  }

  /** The tab predicate: 0 Incoming, 1 Sent, 2 Feedback, 3 Completed; any other index lists nothing. */
  predicate InTab(r: Referral, tab: int, department: Option<string>)
    ensures InTab(r, tab, department) ==> department.Some? && 0 <= tab <= 3
    ensures InTab(r, tab, department) ==> (tab == 3 <==> r.status == Completed)
    ensures InTab(r, tab, department) && tab < 3 ==> (tab == 2 <==> r.feedback != "")
  {
    if tab == 3 then r.status == Completed && (Mine(r.referringDepartment, department) || Mine(r.targetDepartment, department))
    else if r.status == Completed then false
    else if tab == 0 then Mine(r.targetDepartment, department) && r.feedback == ""
    else if tab == 1 then Mine(r.referringDepartment, department) && r.feedback == ""
    else if tab == 2 then Mine(r.referringDepartment, department) && r.feedback != ""
    else false
  }

  /** `filteredReferrals`: the referrals of one tab, in list order. */
  function TabList(referrals: seq<Referral>, tab: int, department: Option<string>): (shown: seq<Referral>)
    ensures IsSubsequence(shown, referrals)
    ensures forall r :: r in shown <==> r in referrals && InTab(r, tab, department)
    ensures shown == [] <==> forall i :: 0 <= i < |referrals| ==> !InTab(referrals[i], tab, department)
    ensures forall r :: multiset(shown)[r] == if InTab(r, tab, department) then multiset(referrals)[r] else 0
  {
    FilterIsSubsequence(referrals, r => InTab(r, tab, department));
    FilterCounts(referrals, r => InTab(r, tab, department));
    Filter(referrals, r => InTab(r, tab, department))
  }

  /** What each tab lists, in terms of the referral's fields. */
  lemma TabContents(referrals: seq<Referral>, department: Option<string>, r: Referral)
    requires r in referrals
    ensures r in TabList(referrals, 0, department) <==>
      r.status != Completed && Mine(r.targetDepartment, department) && r.feedback == ""
    ensures r in TabList(referrals, 1, department) <==>
      r.status != Completed && Mine(r.referringDepartment, department) && r.feedback == ""
    ensures r in TabList(referrals, 2, department) <==>
      r.status != Completed && Mine(r.referringDepartment, department) && r.feedback != ""
    ensures r in TabList(referrals, 3, department) <==>
      r.status == Completed && (Mine(r.referringDepartment, department) || Mine(r.targetDepartment, department))
  {
  }

  /** Tabs 0 to 2 never list a completed referral. */
  lemma OpenTabsExcludeCompleted(referrals: seq<Referral>, tab: int, department: Option<string>)
    requires 0 <= tab <= 2
    ensures forall r :: r in TabList(referrals, tab, department) ==> r.status != Completed
  {
  }

  /** Sent and Feedback share nothing, and neither do Incoming and Feedback. */
  lemma FeedbackTabIsDisjoint(referrals: seq<Referral>, department: Option<string>)
    ensures forall r :: r in TabList(referrals, 2, department) ==> r !in TabList(referrals, 1, department)
    ensures forall r :: r in TabList(referrals, 2, department) ==> r !in TabList(referrals, 0, department)
  {
  }

  /** An open referral I sent is in exactly one of Sent and Feedback. */
  lemma SentReferralsSplitByFeedback(referrals: seq<Referral>, department: Option<string>, r: Referral)
    requires r in referrals && r.status != Completed && Mine(r.referringDepartment, department)
    ensures (r in TabList(referrals, 1, department)) != (r in TabList(referrals, 2, department))
  {
  }

  /** A tab index outside 0..3 lists nothing; so does every tab without a department. */
  lemma EmptyTabs(referrals: seq<Referral>, tab: int)
    ensures tab < 0 || 3 < tab ==> TabList(referrals, tab, None) == [] && forall d :: TabList(referrals, tab, Some(d)) == []
    ensures TabList(referrals, tab, None) == []
  {
  }

  /** `incomingCount`. */
  function IncomingCount(referrals: seq<Referral>, department: Option<string>): (n: nat)
    ensures n == |TabList(referrals, 0, department)|
  {
    var p := (r: Referral) => r.status != Completed && Mine(r.targetDepartment, department) && r.feedback == "";
    FilterAgreement(referrals, p, r => InTab(r, 0, department));
    |Filter(referrals, p)|
  }

  /** `feedbackCount`. */
  function FeedbackCount(referrals: seq<Referral>, department: Option<string>): (n: nat)
    ensures n == |TabList(referrals, 2, department)|
  {
    var p := (r: Referral) => r.status != Completed && Mine(r.referringDepartment, department) && r.feedback != "";
    FilterAgreement(referrals, p, r => InTab(r, 2, department));
    |Filter(referrals, p)|
  }

  /**
   * The sort comparator `time(b) - time(a)` as an order: `a` may stay before
   * `b` when it is at least as recent. `time` stands for
   * `new Date(createdAt).getTime()`.
   */
  function AtLeastAsRecent(time: string -> int): (le: (Referral, Referral) -> bool)
    ensures TotalPreorder(le)
  {
    var le := (a: Referral, b: Referral) => time(a.createdAt) >= time(b.createdAt);
    assert forall a, b, c :: le(a, b) && le(b, c) ==> le(a, c);
    le
  }

  /** `data.sort(...)`: the same referrals, newest first. */
  function NewestFirst(referrals: seq<Referral>, time: string -> int): (sorted: seq<Referral>)
    ensures multiset(sorted) == multiset(referrals)
    ensures forall i, j :: 0 <= i < j < |sorted| ==> time(sorted[i].createdAt) >= time(sorted[j].createdAt)
  {
    var le := AtLeastAsRecent(time);
    SortByPermutes(referrals, le);
    SortBySorted(referrals, le);
    SortBy(referrals, le)
  }

  /**
   * The chip colours. `Inherited` is what the lookup finds for a status named
   * after a member of `Object.prototype`: that member itself, which is not
   * nullish, so `?? 'default'` keeps it.
   */
  datatype ChipColor = Warning | Info | Success | Default | Inherited(member: string)

  const ColorMap: map<string, ChipColor> := map[Pending := Warning, Viewed := Info, Completed := Success]

  /** The property names every object literal inherits from `Object.prototype`. */
  const ObjectPrototypeMembers: set<string> := {
    "constructor", "hasOwnProperty", "isPrototypeOf", "propertyIsEnumerable",
    "toLocaleString", "toString", "valueOf", "__proto__",
    "__defineGetter__", "__defineSetter__", "__lookupGetter__", "__lookupSetter__"}

  /** `colorMap[status] ?? 'default'`, with the lookup reaching the prototype chain. */
  function StatusColor(status: string): (c: ChipColor)
    ensures status == Pending <==> c == Warning
    ensures status == Viewed <==> c == Info
    ensures status == Completed <==> c == Success
    ensures status in ObjectPrototypeMembers <==> c == Inherited(status)
    ensures c == Default <==> status !in {Pending, Viewed, Completed} && status !in ObjectPrototypeMembers
  {
    if status in ColorMap then ColorMap[status]
    else if status in ObjectPrototypeMembers then Inherited(status)
    else Default
  }

  /**
   * The body `handleSaveNewReferral` posts: the form's four fields, plus the
   * session's department and name. An absent department is dropped by
   * `JSON.stringify` and reaches the route as "".
   */
  function PostBody(input: NewReferralInput, department: Option<string>, name: string): (body: NewReferralRequest)
    ensures body.ward == input.ward && body.bed == input.bed
    ensures body.targetDepartment == input.targetDepartment && body.notes == input.notes
    ensures body.referringClinician == name
    ensures department.Some? ==> body.referringDepartment == department.value
    ensures department.None? ==> body.referringDepartment == ""
  {
    NewReferralRequest(input.ward, input.bed, if department.Some? then department.value else "",
      name, input.targetDepartment, input.notes)
  }

  /** How a `fetch` ended: an HTTP reply, or a thrown error. */
  datatype Reply = Reply(status: int, statusText: string) | NetworkError(message: string)

  /** `res.ok`. */
  predicate ReplyOk(reply: Reply) {
    reply.Reply? && 200 <= reply.status <= 299
  }

  /** The message `setError` receives for a failed call. */
  function FailureMessage(reply: Reply, message: string): string {
    if reply.NetworkError? then reply.message else message
  }

  /** The message of a failed `fetchReferrals`. */
  function FetchFailureMessage(reply: Reply): string {
    if reply.NetworkError? then reply.message else "Failed to fetch data: " + reply.statusText
  }

  /** The component state of `Home`. */
  datatype HomeState = HomeState(
    tabIndex: int,
    referrals: seq<Referral>,
    loading: bool,
    error: Option<string>,
    isNewModalOpen: bool,
    isViewModalOpen: bool,
    selectedReferral: Option<Referral>)

  /** The `Home` component of a signed-in user: `department` and `userName` come from the session. */
  class Home {
    const department: Option<string>
    const userName: string
    var tabIndex: int
    var referrals: seq<Referral>
    var loading: bool
    var error: Option<string>
    var isNewModalOpen: bool
    var isViewModalOpen: bool
    var selectedReferral: Option<Referral>

    function State(): HomeState
      reads this
    {
      HomeState(tabIndex, referrals, loading, error, isNewModalOpen, isViewModalOpen, selectedReferral)
    }

    constructor (user: SessionUser)
      ensures department == user.department && userName == user.name
      ensures State() == HomeState(0, [], true, None, false, false, None)
    {
      department := user.department;
      userName := user.name;
      tabIndex := 0;
      referrals := [];
      loading := true;
      error := None;
      isNewModalOpen := false;
      isViewModalOpen := false;
      selectedReferral := None;
    }

    /**
     * `fetchReferrals`: on success the list is replaced by the fetched
     * referrals, newest first, and the error cleared; on failure the list is
     * kept and the error set. Loading ends either way.
     */
    method FetchReferrals(reply: Reply, items: seq<Referral>, time: string -> int)
      modifies this
      ensures ReplyOk(reply) ==>
        State() == old(State()).(referrals := NewestFirst(items, time), error := None, loading := false)
      ensures !ReplyOk(reply) ==>
        State() == old(State()).(loading := false,
          error := Some(FetchFailureMessage(reply)))
    {
      loading := true;
      if ReplyOk(reply) {
        referrals := NewestFirst(items, time);
        error := None;
      } else {
        error := Some(FetchFailureMessage(reply));
      }
      loading := false;
    }

    /** `handleTabChange`. */
    method HandleTabChange(newValue: int)
      modifies this
      ensures State() == old(State()).(tabIndex := newValue)
    {
      tabIndex := newValue;
    }

    /** `handleOpenViewModal`. */
    method HandleOpenViewModal(r: Referral)
      modifies this
      ensures State() == old(State()).(selectedReferral := Some(r), isViewModalOpen := true)
    {
      selectedReferral := Some(r);
      isViewModalOpen := true;
    }

    /** The view modal's `onClose`. */
    method CloseViewModal()
      modifies this
      ensures State() == old(State()).(selectedReferral := None, isViewModalOpen := false)
    {
      isViewModalOpen := false;
      selectedReferral := None;
    }

    /**
     * `handleSaveNewReferral`: posts the enriched body; on success the new
     * referral dialog closes and the list is fetched again (`refetch`,
     * `items` and `time` are that fetch's reply, list and date reading).
     */
    method HandleSaveNewReferral(input: NewReferralInput, reply: Reply,
                                 refetch: Reply, items: seq<Referral>, time: string -> int)
      returns (body: NewReferralRequest)
      modifies this
      ensures body == PostBody(input, department, userName)
      ensures ReplyOk(reply) && ReplyOk(refetch) ==>
        State() == old(State()).(isNewModalOpen := false, referrals := NewestFirst(items, time),
          error := None, loading := false)
      ensures ReplyOk(reply) && !ReplyOk(refetch) ==>
        State() == old(State()).(isNewModalOpen := false, error := Some(FetchFailureMessage(refetch)),
          loading := false)
      ensures !ReplyOk(reply) ==>
        State() == old(State()).(error := Some(FailureMessage(reply, "Failed to create referral")))
    {
      body := PostBody(input, department, userName);
      if ReplyOk(reply) {
        isNewModalOpen := false;
        FetchReferrals(refetch, items, time);
      } else {
        error := Some(FailureMessage(reply, "Failed to create referral"));
      }
    }

    /**
     * `handleUpdateReferral`: the referral is sent unchanged; on success the
     * view dialog closes, the selection is cleared and the list is fetched
     * again, as in `HandleSaveNewReferral`.
     */
    method HandleUpdateReferral(update: Referral, reply: Reply,
                                refetch: Reply, items: seq<Referral>, time: string -> int)
      returns (body: Referral)
      modifies this
      ensures body == update
      ensures ReplyOk(reply) && ReplyOk(refetch) ==>
        State() == old(State()).(isViewModalOpen := false, selectedReferral := None,
          referrals := NewestFirst(items, time), error := None, loading := false)
      ensures ReplyOk(reply) && !ReplyOk(refetch) ==>
        State() == old(State()).(isViewModalOpen := false, selectedReferral := None,
          error := Some(FetchFailureMessage(refetch)), loading := false)
      ensures !ReplyOk(reply) ==>
        State() == old(State()).(error := Some(FailureMessage(reply, "Failed to update referral")))
    {
      body := update;
      if ReplyOk(reply) {
        isViewModalOpen := false;
        selectedReferral := None;
        FetchReferrals(refetch, items, time);
      } else {
        error := Some(FailureMessage(reply, "Failed to update referral"));
      }
    }
  }
}

=== FILE: referrals_route.dfy ===
/**
 * The referrals API route (`src/app/api/referrals/route.ts`): GET decodes the
 * Referrals table into records, POST appends a new row, PUT rewrites the row
 * of an existing referral. The row layout is the codec `ReferralRow` /
 * `RowToReferral`; the handlers are methods over the `Spreadsheet` store.
 */
module ReferralsRoute {
  import opened Wrappers
  import opened Seqs
  import opened Text
  import opened Types
  import opened Sheets

  const Unauthorized := Response(401, Message("Unauthorized"))
  const TempIdPrefix := "temp-id-"

  /** `temp-id-${index}`: the id GET gives a data row whose cell A is empty. */
  function TempId(index: nat): string {
    TempIdPrefix + Decimal(index)
  }

  /** Different data rows without an id still get different ids. */
  lemma TempIdsDistinct(i: nat, j: nat)
    requires i != j
    ensures TempId(i) != TempId(j)
  {
    DecimalInjective(i, j);
    assert TempId(i)[|TempIdPrefix|..] == Decimal(i);
    assert TempId(j)[|TempIdPrefix|..] == Decimal(j);
  }

  /** The twelve cells of a referral in sheet column order A..L. */
  function ReferralRow(r: Referral): (row: Row)
    ensures |row| == ReferralColumns
  {
    [r.id, r.ward, r.bed, r.referringDepartment, r.referringClinician, r.targetDepartment,
     r.notes, r.status, r.feedback, r.feedbackClinician, r.createdAt, r.updatedAt]
  }

  /**
   * GET's mapping of one data row (`index` is its 0-based position below the
   * header): `row[k] || ''` for every column, and `temp-id-<index>` for a
   * missing id.
   */
  function RowToReferral(row: Row, index: nat): (r: Referral)
    ensures r.id != ""
  {
    Referral(
      if Cell(row, 0) != "" then Cell(row, 0) else TempId(index),
      Cell(row, 1), Cell(row, 2), Cell(row, 3), Cell(row, 4), Cell(row, 5),
      Cell(row, 6), Cell(row, 7), Cell(row, 8), Cell(row, 9), Cell(row, 10), Cell(row, 11))
  }

  /** Decoding reads column k into field k; a missing or empty cell becomes "" (the id aside). */
  lemma DecodeReadsColumns(row: Row, index: nat)
    ensures var cells := ReferralRow(RowToReferral(row, index));
      && (forall k :: 1 <= k < ReferralColumns ==> cells[k] == Cell(row, k))
      && cells[0] == (if Cell(row, 0) != "" then row[0] else TempId(index))
  {
  }

  /** Encoding then decoding gives the referral back whenever it has an id. */
  lemma DecodeEncode(r: Referral, index: nat)
    requires r.id != ""
    ensures RowToReferral(ReferralRow(r), index) == r
  {
  }

  /** Decoding then encoding a full-width row with an id gives the row back. */
  lemma EncodeDecode(row: Row, index: nat)
    requires |row| == ReferralColumns && row[0] != ""
    ensures ReferralRow(RowToReferral(row, index)) == row
  {
  }

  /** `rows.slice(1).map(...)`: one referral per row below the header, in order. */
  function DecodeRows(rows: Table): (rs: seq<Referral>)
    ensures |rs| == if rows == [] then 0 else |rows| - 1
    ensures forall i :: 0 <= i < |rs| ==> rs[i] == RowToReferral(rows[i + 1], i)
  {
    var data := DropHeader(rows);
    seq(|data|, i requires 0 <= i < |data| => RowToReferral(data[i], i))
  }

  /** A row appended below at least a header shows up as the last referral GET returns. */
  lemma DecodeAppended(rows: Table, row: Row)
    requires rows != []
    ensures DecodeRows(rows + [row]) == DecodeRows(rows) + [RowToReferral(row, |rows| - 1)]
  {
    var a, b := DecodeRows(rows + [row]), DecodeRows(rows) + [RowToReferral(row, |rows| - 1)];
    assert |a| == |b|;
    forall i | 0 <= i < |a| ensures a[i] == b[i] {
      if i < |rows| - 1 {
        assert (rows + [row])[i + 1] == rows[i + 1];
      }
    }
  }

  /** Cutting rows to columns A..L does not change what GET decodes. */
  lemma DecodeProjected(rows: Table)
    ensures DecodeRows(Project(rows, ReferralColumns)) == DecodeRows(rows)
  {
    var p := Project(rows, ReferralColumns);
    forall i | 0 <= i < |DecodeRows(rows)|
      ensures DecodeRows(p)[i] == DecodeRows(rows)[i]
    {
      assert p[i + 1] == Columns(rows[i + 1], ReferralColumns);
    }
  }

  /** GET: 401 without a session; otherwise every data row decoded, in sheet order. */
  method Get(db: Spreadsheet, session: Option<SessionUser>) returns (resp: Response)
    ensures session.None? ==> resp == Unauthorized
    ensures session.Some? && db.sheetId == "" ==> resp == Response(500, Message("Error fetching referrals"))
    ensures session.Some? && db.sheetId != "" && db.referrals == [] ==> resp == Response(200, ReferralList([]))
    ensures session.Some? && db.sheetId != "" ==> resp == Response(200, ReferralList(DecodeRows(db.referrals)))
  {
    if session.None? {
      return Unauthorized;
    }
    var rows := db.GetRows();
    if rows.Err? {
      return Response(500, Message("Error fetching referrals"));
    }
    if rows.value.None? {
      return Response(200, ReferralList([]));
    }
    DecodeProjected(db.referrals);
    assert rows.value.value == Project(db.referrals, ReferralColumns);
    resp := Response(200, ReferralList(DecodeRows(rows.value.value)));
  }

  /** `REF-${now.getTime()}-${Math.floor(Math.random() * 1000)}`. */
  function GeneratedId(millis: nat, random: nat): (id: string)
    requires random < 1000
    ensures |id| > 4 && id[..4] == "REF-"
  {
    var id := "REF-" + Decimal(millis) + "-" + Decimal(random);
    assert id[..4] == "REF-";
    id
  }

  /** POST's row: the request's fields, status Pending, no feedback, created = updated = now. */
  function NewReferralRow(body: NewReferralRequest, id: string, now: string): (row: Row)
    ensures |row| == ReferralColumns && row[0] == id && row[7] == Pending
    ensures row[8] == "" && row[9] == ""
    ensures row[10] == now && row[11] == now
  {
    [id, body.ward, body.bed, body.referringDepartment, body.referringClinician, body.targetDepartment,
     body.notes, Pending, "", "", now, now]
  }

  /** The referral a POST creates. */
  function CreatedReferral(body: NewReferralRequest, id: string, now: string): Referral {
    Referral(id, body.ward, body.bed, body.referringDepartment, body.referringClinician,
      body.targetDepartment, body.notes, Pending, "", "", now, now)
  }

  /** The row POST appends is the layout of the referral it creates, read back exactly by GET. */
  lemma PostRowRoundTrip(body: NewReferralRequest, id: string, now: string, index: nat)
    requires id != ""
    ensures NewReferralRow(body, id, now) == ReferralRow(CreatedReferral(body, id, now))
    ensures RowToReferral(NewReferralRow(body, id, now), index) == CreatedReferral(body, id, now)
    ensures RowToReferral(NewReferralRow(body, id, now), index).status == Pending
  {
    DecodeEncode(CreatedReferral(body, id, now), index);
  }

  /** POST: 401 without a session; otherwise exactly one row appended, then 201. */
  method Post(db: Spreadsheet, session: Option<SessionUser>, body: NewReferralRequest,
              millis: nat, random: nat, now: string) returns (resp: Response)
    requires random < 1000
    modifies db
    ensures session.None? ==> resp == Unauthorized && db.Contents() == old(db.Contents())
    ensures session.Some? && old(db.sheetId) == "" ==>
      resp == Response(500, Message("Error creating referral")) && db.Contents() == old(db.Contents())
    ensures session.Some? && old(db.sheetId) != "" ==>
      && resp == Response(201, Message("Referral created successfully"))
      && db.referrals == old(db.referrals) + [NewReferralRow(body, GeneratedId(millis, random), now)]
      && db.users == old(db.users) && db.sheetId == old(db.sheetId)
  {
    if session.None? {
      return Unauthorized;
    }
    var id := GeneratedId(millis, random);
    var outcome := db.AppendRow(NewReferralRow(body, id, now));
    if outcome.Fail? {
      return Response(500, Message("Error creating referral"));
    }
    resp := Response(201, Message("Referral created successfully"));
  }

  /** `updatedReferralData.feedback ? (session?.user?.name || 'N/A') : updatedReferralData.feedbackClinician`. */
  function FeedbackClinician(update: Referral, user: SessionUser): (name: string)
    ensures update.feedback != "" ==> name != "" && (user.name != "" ==> name == user.name)
    ensures update.feedback != "" && user.name == "" ==> name == "N/A"
    ensures update.feedback == "" ==> name == update.feedbackClinician
  {
    if update.feedback != "" then (if user.name != "" then user.name else "N/A")
    else update.feedbackClinician
  }

  /** PUT's row, built field by field from the request. */
  function UpdatedRow(update: Referral, user: SessionUser, now: string): (row: Row)
    ensures |row| == ReferralColumns && row[..9] == ReferralRow(update)[..9]
    ensures row[9] == FeedbackClinician(update, user)
    ensures row[10] == update.createdAt && row[11] == now
  {
    [update.id, update.ward, update.bed, update.referringDepartment, update.referringClinician,
     update.targetDepartment, update.notes, update.status, update.feedback,
     FeedbackClinician(update, user), update.createdAt, now]
  }

  /**
   * PUT keeps the request's id, createdAt and other fields, sets updatedAt to
   * now, and takes feedbackClinician from the session user whenever there is
   * feedback; GET reads exactly that referral back.
   */
  lemma UpdatedRowLayout(update: Referral, user: SessionUser, now: string, index: nat)
    requires update.id != ""
    ensures var stored := update.(feedbackClinician := FeedbackClinician(update, user), updatedAt := now);
      && UpdatedRow(update, user, now) == ReferralRow(stored)
      && RowToReferral(UpdatedRow(update, user, now), index) == stored
    ensures update.feedback != "" ==>
      RowToReferral(UpdatedRow(update, user, now), index).feedbackClinician == (if user.name != "" then user.name else "N/A")
    ensures update.feedback == "" ==>
      RowToReferral(UpdatedRow(update, user, now), index).feedbackClinician == update.feedbackClinician
  {
    DecodeEncode(update.(feedbackClinician := FeedbackClinician(update, user), updatedAt := now), index);
  }

  /**
   * `rows ? rows.findIndex(r => r[0] === id) + 1 : -1` as written: -1 only when
   * the table is absent; 0 when no row has the id; otherwise the 1-based sheet
   * row of the first row (header included) whose cell A is the id.
   */
  function RowIndexAsWritten(rows: Option<Table>, id: string): (n: int)
    ensures n == -1 <==> rows.None?
    ensures rows.Some? ==> 0 <= n <= |rows.value|
    ensures rows.Some? && n == 0 <==> rows.Some? && forall k :: 0 <= k < |rows.value| ==> !HasKey(rows.value[k], id)
    ensures n > 0 ==> HasKey(rows.value[n - 1], id) && forall k :: 0 <= k < n - 1 ==> !HasKey(rows.value[k], id)
  {
    if rows.Some? then FindIndexByKey(rows.value, id) + 1 else -1
  }

  /** The as-written index can never be -1 for a present table: an unknown id yields row 0. */
  lemma UnknownIdMissesNotFoundBranch()
    ensures RowIndexAsWritten(Some([["ID"], ["REF-1"]]), "REF-2") == 0
  {
    assert !HasKey(["ID"], "REF-2") && !HasKey(["REF-1"], "REF-2");
  }

  /**
   * Corrected lookup: the 1-based sheet row of the referral, or `None` (404)
   * when the table is absent or no row has the id.
   */
  function SheetRowOf(rows: Option<Table>, id: string): (n: Option<nat>)
    ensures n.None? <==> rows.None? || forall k :: 0 <= k < |rows.value| ==> !HasKey(rows.value[k], id)
    ensures n.Some? ==> 1 <= n.value <= |rows.value| && HasKey(rows.value[n.value - 1], id)
    ensures n.Some? ==> forall k :: 0 <= k < n.value - 1 ==> !HasKey(rows.value[k], id)
  {
    if rows.None? then None
    else
      var i := FindIndexByKey(rows.value, id);
      if i < 0 then None else Some(i + 1)
  }

  /** Tables whose rows carry the same keys give the same first match. */
  lemma {:induction false} FindIndexAgrees(a: Table, b: Table, id: string)
    requires |a| == |b|
    requires forall k :: 0 <= k < |a| ==> (HasKey(a[k], id) <==> HasKey(b[k], id))
    ensures FindIndexByKey(a, id) == FindIndexByKey(b, id)
  {
    if a != [] {
      assert forall k :: 0 <= k < |a| - 1 ==> a[1..][k] == a[k + 1] && b[1..][k] == b[k + 1];
      FindIndexAgrees(a[1..], b[1..], id);
    }
  }

  /** Keys survive cutting rows to columns A..L. */
  lemma FindIndexProjected(rows: Table, id: string)
    ensures FindIndexByKey(Project(rows, ReferralColumns), id) == FindIndexByKey(rows, id)
  {
    FindIndexAgrees(Project(rows, ReferralColumns), rows, id);
  }

  /**
   * PUT as written. Without a session: 401. With one: when the table is
   * absent, 404; when no row has the id, the write goes to row 0, which the
   * Sheets API rejects, so 500; otherwise the first matching row is rewritten.
   */
  method Put(db: Spreadsheet, session: Option<SessionUser>, update: Referral, now: string) returns (resp: Response)
    modifies db
    ensures session.None? ==> resp == Unauthorized && db.Contents() == old(db.Contents())
    ensures session.Some? && old(db.sheetId) == "" ==>
      resp == Response(500, Message("Error updating referral")) && db.Contents() == old(db.Contents())
    ensures session.Some? && old(db.sheetId) != "" && old(db.referrals) == [] ==>
      resp == Response(404, Message("Referral ID not found")) && db.Contents() == old(db.Contents())
    ensures session.Some? && old(db.sheetId) != "" && old(db.referrals) != [] ==>
      var i := FindIndexByKey(old(db.referrals), update.id);
      && (i == -1 ==> resp == Response(500, Message("Error updating referral")) && db.Contents() == old(db.Contents()))
      && (i != -1 ==>
            && resp == Response(200, Message("Referral updated successfully"))
            && db.referrals == WriteRow(old(db.referrals), i + 1, UpdatedRow(update, session.value, now))
            && db.users == old(db.users) && db.sheetId == old(db.sheetId))
  {
    if session.None? {
      return Unauthorized;
    }
    var rows := db.GetRows();
    if rows.Err? {
      return Response(500, Message("Error updating referral"));
    }
    FindIndexProjected(db.referrals, update.id);
    var actualRowIndex := RowIndexAsWritten(rows.value, update.id);
    if actualRowIndex == -1 {
      return Response(404, Message("Referral ID not found"));
    }
    var outcome := db.UpdateRow(actualRowIndex, UpdatedRow(update, session.value, now));
    if outcome.Fail? {
      return Response(500, Message("Error updating referral"));
    }
    resp := Response(200, Message("Referral updated successfully"));
  }

  /** Index of the feedback column (I). */
  const FeedbackColumn: nat := 8

  /**
   * Corrected author rule: the session user becomes the feedback author only
   * when the request's feedback is non-empty and differs from the stored one.
   */
  function FeedbackClinicianCorrected(update: Referral, stored: Row, user: SessionUser): (name: string)
    ensures update.feedback == "" || update.feedback == Cell(stored, FeedbackColumn) ==>
      name == update.feedbackClinician
    ensures update.feedback != "" && update.feedback != Cell(stored, FeedbackColumn) ==>
      name == (if user.name != "" then user.name else "N/A")
  {
    if update.feedback != "" && update.feedback != Cell(stored, FeedbackColumn) then
      (if user.name != "" then user.name else "N/A")
    else update.feedbackClinician
  }

  /** PUT's row with the corrected author rule. */
  function UpdatedRowCorrected(update: Referral, stored: Row, user: SessionUser, now: string): Row {
    ReferralRow(update.(feedbackClinician := FeedbackClinicianCorrected(update, stored, user), updatedAt := now))
  }

  /**
   * As written, marking a referral complete makes whoever completes it the
   * feedback author, although the feedback is unchanged.
   */
  lemma CompletingOverwritesFeedbackAuthor()
    ensures var stored := Referral("REF-1", "W1", "3", "Cardiology", "Dr Ref", "Neurology", "n",
                                   Viewed, "seen", "Dr Target", "t0", "t1");
      var completed := stored.(status := Completed);
      && UpdatedRow(completed, SessionUser("Dr Ref", Some("Cardiology")), "t2")[9] == "Dr Ref"
      && stored.feedbackClinician == "Dr Target"
  {
  }

  /** Corrected: a request that leaves the stored feedback as it is keeps its feedback author. */
  lemma CorrectedKeepsAuthorWhenFeedbackUnchanged(stored: Referral, user: SessionUser, now: string, index: nat)
    requires stored.id != ""
    ensures var completed := stored.(status := Completed);
      RowToReferral(UpdatedRowCorrected(completed, ReferralRow(stored), user, now), index)
        == stored.(status := Completed, updatedAt := now)
  {
    var completed := stored.(status := Completed);
    assert Cell(ReferralRow(stored), FeedbackColumn) == stored.feedback;
    DecodeEncode(completed.(feedbackClinician := FeedbackClinicianCorrected(completed, ReferralRow(stored), user), updatedAt := now), index);
  }

  /** The corrected row reads only the stored feedback cell, which the A..L cut keeps. */
  lemma CorrectedRowReadsStoredFeedbackOnly(update: Referral, stored: Row, user: SessionUser, now: string)
    ensures UpdatedRowCorrected(update, Columns(stored, ReferralColumns), user, now) ==
      UpdatedRowCorrected(update, stored, user, now)
  {
    assert Cell(Columns(stored, ReferralColumns), FeedbackColumn) == Cell(stored, FeedbackColumn);
  }

  /**
   * PUT with both corrections: an unknown id gives 404 with no write, and the
   * feedback author changes only when the feedback does.
   */
  method PutCorrected(db: Spreadsheet, session: Option<SessionUser>, update: Referral, now: string) returns (resp: Response)
    modifies db
    ensures session.None? ==> resp == Unauthorized && db.Contents() == old(db.Contents())
    ensures session.Some? && old(db.sheetId) == "" ==>
      resp == Response(500, Message("Error updating referral")) && db.Contents() == old(db.Contents())
    ensures session.Some? && old(db.sheetId) != "" ==>
      var n := SheetRowOf(Values(old(db.referrals)), update.id);
      && (n.None? ==> resp == Response(404, Message("Referral ID not found")) && db.Contents() == old(db.Contents()))
      && (n.Some? ==>
            && resp == Response(200, Message("Referral updated successfully"))
            && db.referrals == WriteRow(old(db.referrals), n.value,
                 UpdatedRowCorrected(update, old(db.referrals)[n.value - 1], session.value, now))
            && db.users == old(db.users) && db.sheetId == old(db.sheetId))
  {
    if session.None? {
      return Unauthorized;
    }
    var rows := db.GetRows();
    if rows.Err? {
      return Response(500, Message("Error updating referral"));
    }
    FindIndexProjected(db.referrals, update.id);
    var n := SheetRowOf(rows.value, update.id);
    if n.None? {
      return Response(404, Message("Referral ID not found"));
    }
    var stored := rows.value.value[n.value - 1];
    assert stored == Columns(db.referrals[n.value - 1], ReferralColumns);
    CorrectedRowReadsStoredFeedbackOnly(update, db.referrals[n.value - 1], session.value, now);
    var row := UpdatedRowCorrected(update, stored, session.value, now);
    var outcome := db.UpdateRow(n.value, row);
    resp := Response(200, Message("Referral updated successfully"));
  }
}

=== FILE: register_route.dfy ===
/**
 * User registration (`src/app/api/users/register/route.ts`): validate the
 * three fields, return the stored record when the email is already
 * registered, otherwise append one Users row.
 */
module RegisterRoute {
  import opened Wrappers
  import opened Types
  import opened Sheets

  const MissingFields := Response(400, ErrorText("Email, name, and department are required"))
  const RegistrationFailed := Response(500, ErrorText("Failed to register user"))

  /** The number of Users rows whose cell A is `email`. */
  function CountKey(users: Table, email: string): nat {
    if users == [] then 0 else (if HasKey(users[0], email) then 1 else 0) + CountKey(users[1..], email)
  }

  lemma {:induction false} CountKeyAppend(users: Table, row: Row, email: string)
    ensures CountKey(users + [row], email) == CountKey(users, email) + (if HasKey(row, email) then 1 else 0)
    decreases |users|
  {
    if users != [] {
      assert (users + [row])[1..] == users[1..] + [row];
      CountKeyAppend(users[1..], row, email);
    }
  }

  /** The lookup finds the email exactly when some Users row carries it. */
  lemma {:induction false} LookupFindsIffCounted(users: Table, email: string)
    ensures LookupUser(Values(Project(users, UserColumns)), email).Some? <==> CountKey(users, email) > 0
    decreases |users|
  {
    var p := Project(users, UserColumns);
    assert forall k :: 0 <= k < |users| ==> (HasKey(p[k], email) <==> HasKey(users[k], email));
    if users != [] {
      LookupFindsIffCounted(users[1..], email);
      var q := Project(users[1..], UserColumns);
      assert forall k :: 0 <= k < |q| ==> q[k] == p[k + 1];
      if HasKey(users[0], email) {
        assert HasKey(p[0], email);
      } else if CountKey(users[1..], email) > 0 {
        var j :| 0 <= j < |q| && HasKey(q[j], email);
        assert HasKey(p[j + 1], email);
      } else {
        assert forall j :: 0 <= j < |q| ==> !HasKey(q[j], email);
        assert forall j :: 0 <= j < |p| ==> !HasKey(p[j], email) by {
          forall j | 0 <= j < |p| ensures !HasKey(p[j], email) {
            if j > 0 {
              assert p[j] == q[j - 1];
            }
          }
        }
      }
    }
  }

  /** The Users table after a valid registration reaches the store. */
  function UsersAfterRegistration(users: Table, email: string, name: string, department: string): Table {
    if LookupUser(Values(Project(users, UserColumns)), email).Some? then users
    else users + [[email, name, department]]
  }

  /** Registration creates the email's row if it had none and never adds a second one. */
  lemma RegistrationKeepsOneRowPerEmail(users: Table, email: string, name: string, department: string)
    ensures var n := CountKey(users, email);
      CountKey(UsersAfterRegistration(users, email, name, department), email) == if n == 0 then 1 else n
  {
    LookupFindsIffCounted(users, email);
    CountKeyAppend(users, [email, name, department], email);
  }

  /** Registering the same email twice, with any names and departments, leaves one row for it. */
  lemma RegisteringTwiceLeavesOneRow(users: Table, email: string, name1: string, department1: string,
                                     name2: string, department2: string)
    requires CountKey(users, email) == 0
    ensures var once := UsersAfterRegistration(users, email, name1, department1);
      && CountKey(once, email) == 1
      && UsersAfterRegistration(once, email, name2, department2) == once
  {
    var once := UsersAfterRegistration(users, email, name1, department1);
    RegistrationKeepsOneRowPerEmail(users, email, name1, department1);
    LookupFindsIffCounted(once, email);
  }

  /**
   * POST: 400 when a field is empty, before any lookup; 200 with the STORED
   * record when the email is registered (whatever name and department were
   * sent); otherwise one appended row and 201 with the submitted triple;
   * 500 when a sheet call throws.
   */
  method Register(db: Spreadsheet, email: string, name: string, department: string) returns (resp: Response)
    modifies db
    ensures email == "" || name == "" || department == "" ==>
      resp == MissingFields && db.Contents() == old(db.Contents())
    ensures email != "" && name != "" && department != "" && old(db.sheetId) == "" ==>
      resp == RegistrationFailed && db.Contents() == old(db.Contents())
    ensures email != "" && name != "" && department != "" && old(db.sheetId) != "" ==>
      var existing := LookupUser(Values(Project(old(db.users), UserColumns)), email);
      && db.users == UsersAfterRegistration(old(db.users), email, name, department)
      && db.referrals == old(db.referrals) && db.sheetId == old(db.sheetId)
      && (existing.Some? ==> resp == Response(200, UserData(existing.value)))
      && (existing.None? ==> resp == Response(201, UserData(UserRecord(email, name, department))))
  {
    if email == "" || name == "" || department == "" {
      return MissingFields;
    }
    var existing := db.GetUserByEmail(email);
    if existing.Err? {
      return RegistrationFailed;
    }
    if existing.value.Some? {
      return Response(200, UserData(existing.value.value));
    }
    var created := db.CreateUser(email, name, department);
    if created.Err? {
      return RegistrationFailed;
    }
    resp := Response(201, UserData(created.value));
  }
}

=== FILE: seqs.dfy ===
/**
 * Sequence operations the source takes from JavaScript's `Array` and `Set`:
 * `filter`, `flat`, `[...new Set(xs)]`, `findIndex`-style first occurrence and
 * a stable `sort` with a comparator, each with the properties the rest of the
 * model relies on.
 */
module Seqs {

  /** `s.filter(p)`: the elements of `s` that satisfy `p`, in their original order. */
  function Filter<T(!new)>(s: seq<T>, p: T -> bool): (r: seq<T>)
    ensures |r| <= |s|
    ensures forall x :: x in r <==> x in s && p(x)
    ensures r == [] <==> forall i :: 0 <= i < |s| ==> !p(s[i])
    ensures (forall i :: 0 <= i < |s| ==> p(s[i])) ==> r == s
  {
    if s == [] then []
    else
      var rest := Filter(s[1..], p);
      assert forall x :: x in s <==> x == s[0] || x in s[1..];
      if p(s[0]) then [s[0]] + rest else rest
  }

  /** `filter` keeps every occurrence of an accepted element, and no occurrence of another. */
  lemma {:induction false} FilterCounts<T(!new)>(s: seq<T>, p: T -> bool)
    ensures forall x :: multiset(Filter(s, p))[x] == if p(x) then multiset(s)[x] else 0
    decreases |s|
  {
    if s != [] {
      FilterCounts(s[1..], p);
      assert s == [s[0]] + s[1..];
    }
  }

  /** `a` can be obtained from `b` by deleting elements (order is kept). */
  predicate IsSubsequence<T(==)>(a: seq<T>, b: seq<T>)
    decreases |b|
  {
    a == [] || (b != [] && ((a[0] == b[0] && IsSubsequence(a[1..], b[1..])) || IsSubsequence(a, b[1..])))
  }

  lemma {:induction false} FilterIsSubsequence<T(!new)>(s: seq<T>, p: T -> bool)
    ensures IsSubsequence(Filter(s, p), s)
    decreases |s|
  {
    if s != [] {
      FilterIsSubsequence(s[1..], p);
      var rest := Filter(s[1..], p);
      if p(s[0]) {
        assert Filter(s, p) == [s[0]] + rest;
        assert ([s[0]] + rest)[1..] == rest;
      } else {
        assert Filter(s, p) == rest;
        SubsequenceOfTail(rest, s);
      }
    }
  }

  lemma {:induction false} SubsequenceOfTail<T>(a: seq<T>, b: seq<T>)
    requires b != [] && IsSubsequence(a, b[1..])
    ensures IsSubsequence(a, b)
  {
  }

  /** Two predicates that agree on every element of `s` select the same elements. */
  lemma {:induction false} FilterAgreement<T(!new)>(s: seq<T>, p: T -> bool, q: T -> bool)
    requires forall i :: 0 <= i < |s| ==> p(s[i]) == q(s[i])
    ensures Filter(s, p) == Filter(s, q)
    decreases |s|
  {
    if s != [] {
      assert p(s[0]) == q(s[0]);
      FilterAgreement(s[1..], p, q);
    }
  }

  /** Selection distributes over concatenation. */
  lemma {:induction false} FilterAppend<T(!new)>(a: seq<T>, b: seq<T>, p: T -> bool)
    ensures Filter(a + b, p) == Filter(a, p) + Filter(b, p)
    decreases |a|
  {
    if a == [] {
      assert a + b == b;
    } else {
      assert (a + b)[0] == a[0];
      assert (a + b)[1..] == a[1..] + b;
      FilterAppend(a[1..], b, p);
    }
  }

  /** No element occurs twice. */
  predicate NoDuplicates<T(==)>(s: seq<T>) {
    forall i, j :: 0 <= i < j < |s| ==> s[i] != s[j]
  }

  /** `rows.flat()`: the concatenation of the inner sequences, in order. */
  function Flatten<T(!new)>(rows: seq<seq<T>>): (r: seq<T>)
    ensures forall x :: x in r <==> exists k :: 0 <= k < |rows| && x in rows[k]
  {
    if rows == [] then []
    else
      var rest := Flatten(rows[1..]);
      assert forall x :: x in rows[0] + rest <==> x in rows[0] || x in rest;
      assert forall k :: 1 <= k < |rows| ==> rows[k] == rows[1..][k - 1];
      rows[0] + rest
  }

  /** Position of the first occurrence of `x` in `xs` (`xs.indexOf(x)`). */
  function FirstIndex<T(==)>(xs: seq<T>, x: T): (i: nat)
    requires x in xs
    ensures i < |xs| && xs[i] == x && x !in xs[..i]
  {
    if xs[0] == x then 0
    else
      var k := FirstIndex(xs[1..], x);
      assert xs[..k + 1] == [xs[0]] + xs[1..][..k];
      k + 1
  }

  /** `FirstIndex` is the only position holding `x` with no `x` before it. */
  lemma {:induction false} FirstIndexUnique<T>(xs: seq<T>, x: T, i: nat)
    requires i < |xs| && xs[i] == x && x !in xs[..i]
    ensures FirstIndex(xs, x) == i
  {
    if i > 0 {
      assert xs[0] != x by { assert xs[..i][0] == xs[0]; }
      assert xs[1..][..i - 1] == xs[..i][1..];
      FirstIndexUnique(xs[1..], x, i - 1);
    }
  }

  lemma FirstIndexInPrefix<T>(a: seq<T>, b: seq<T>, x: T)
    requires x in a
    ensures FirstIndex(a + b, x) == FirstIndex(a, x)
  {
    var i := FirstIndex(a, x);
    assert (a + b)[..i] == a[..i];
    FirstIndexUnique(a + b, x, i);
  }

  /**
   * `[...new Set(xs)]`: the distinct elements of `xs`, each where it first
   * occurs (a `Set` keeps insertion order and ignores repeated insertions).
   */
  function Distinct<T(==,!new)>(xs: seq<T>): (r: seq<T>)
    ensures forall x :: x in r <==> x in xs
    ensures NoDuplicates(r)
    decreases |xs|
  {
    if xs == [] then []
    else
      var init, last := xs[..|xs| - 1], xs[|xs| - 1];
      assert xs == init + [last];
      var r0 := Distinct(init);
      if last in r0 then r0 else r0 + [last]
  }

  /** `Distinct` lists the elements in the order of their first occurrences. */
  lemma {:induction false} DistinctKeepsFirstOccurrenceOrder<T(!new)>(xs: seq<T>)
    ensures forall i, j :: 0 <= i < j < |Distinct(xs)| ==>
      FirstIndex(xs, Distinct(xs)[i]) < FirstIndex(xs, Distinct(xs)[j])
    decreases |xs|
  {
    if xs != [] {
      var init, last := xs[..|xs| - 1], xs[|xs| - 1];
      assert xs == init + [last];
      var r0 := Distinct(init);
      DistinctKeepsFirstOccurrenceOrder(init);
      forall x | x in r0 ensures FirstIndex(xs, x) == FirstIndex(init, x) {
        FirstIndexInPrefix(init, [last], x);
      }
      var r := Distinct(xs);
      if last !in r0 {
        assert r == r0 + [last];
        assert last !in init;
        assert xs[..|init|] == init;
        FirstIndexUnique(xs, last, |init|);
        forall i, j | 0 <= i < j < |r|
          ensures FirstIndex(xs, r[i]) < FirstIndex(xs, r[j])
        {
          assert r[i] == r0[i] && r[i] in r0;
          if j < |r0| {
            assert r[j] == r0[j] && r[j] in r0;
          }
        }
      }
    }
  }

  // ----- stable sorting with a comparator ------------------------------------

  /** `le` is a total preorder: every pair is comparable and `le` is transitive. */
  ghost predicate TotalPreorder<T(!new)>(le: (T, T) -> bool) {
    && (forall a, b :: le(a, b) || le(b, a))
    && (forall a, b, c :: le(a, b) && le(b, c) ==> le(a, c))
  }

  /** Every element is `le` every later element. */
  predicate SortedBy<T>(s: seq<T>, le: (T, T) -> bool) {
    forall i, j :: 0 <= i < j < |s| ==> le(s[i], s[j])
  }

  /** Puts `x` before the first element it is `le`, keeping the rest in order. */
  function InsertBy<T>(x: T, s: seq<T>, le: (T, T) -> bool): (r: seq<T>)
    ensures |r| == |s| + 1
  {
    if s == [] then [x]
    else if le(x, s[0]) then [x] + s
    else [s[0]] + InsertBy(x, s[1..], le)
  }

  /** `s.sort(cmp)` where `le(a, b)` means `cmp(a, b) <= 0`: insertion sort. */
  function SortBy<T>(s: seq<T>, le: (T, T) -> bool): (r: seq<T>)
    ensures |r| == |s|
  {
    if s == [] then [] else InsertBy(s[0], SortBy(s[1..], le), le)
  }

  lemma {:induction false} InsertByPermutes<T>(x: T, s: seq<T>, le: (T, T) -> bool)
    ensures multiset(InsertBy(x, s, le)) == multiset(s) + multiset{x}
    decreases |s|
  {
    if s != [] && !le(x, s[0]) {
      InsertByPermutes(x, s[1..], le);
      assert s == [s[0]] + s[1..];
    }
  }

  /** Sorting only reorders: the result is a permutation of the input. */
  lemma {:induction false} SortByPermutes<T>(s: seq<T>, le: (T, T) -> bool)
    ensures multiset(SortBy(s, le)) == multiset(s)
    decreases |s|
  {
    if s != [] {
      SortByPermutes(s[1..], le);
      InsertByPermutes(s[0], SortBy(s[1..], le), le);
      assert s == [s[0]] + s[1..];
    }
  }

  lemma {:induction false} InsertBySorted<T(!new)>(x: T, s: seq<T>, le: (T, T) -> bool)
    requires TotalPreorder(le) && SortedBy(s, le)
    ensures SortedBy(InsertBy(x, s, le), le)
    decreases |s|
  {
    if s != [] && le(x, s[0]) {
      var r := [x] + s;
      forall i, j | 0 <= i < j < |r| ensures le(r[i], r[j]) {
        assert r[j] == s[j - 1];
        if i > 0 {
          assert r[i] == s[i - 1];
        } else if j > 1 {
          assert le(s[0], s[j - 1]);
        }
      }
    } else if s != [] {
      assert le(s[0], x);
      var tail := InsertBy(x, s[1..], le);
      InsertBySorted(x, s[1..], le);
      InsertByPermutes(x, s[1..], le);
      forall y | y in tail ensures le(s[0], y) {
        assert y in multiset(tail);
        assert y == x || y in multiset(s[1..]);
        if y != x {
          var k :| 0 <= k < |s[1..]| && s[1..][k] == y;
          assert s[k + 1] == y;
        }
      }
      var r := [s[0]] + tail;
      forall i, j | 0 <= i < j < |r| ensures le(r[i], r[j]) {
        if i > 0 {
          assert r[i] == tail[i - 1] && r[j] == tail[j - 1];
        } else {
          assert r[j] == tail[j - 1] && r[j] in tail;
        }
      }
    }
  }

  /** With a total preorder, the result is ordered by `le`. */
  lemma {:induction false} SortBySorted<T(!new)>(s: seq<T>, le: (T, T) -> bool)
    requires TotalPreorder(le)
    ensures SortedBy(SortBy(s, le), le)
    decreases |s|
  {
    if s != [] {
      SortBySorted(s[1..], le);
      InsertBySorted(s[0], SortBy(s[1..], le), le);
    }
  }

  lemma {:induction false} InsertByKeepsDistinct<T>(x: T, s: seq<T>, le: (T, T) -> bool)
    requires NoDuplicates(s) && x !in s
    ensures NoDuplicates(InsertBy(x, s, le))
    decreases |s|
  {
    if s != [] && !le(x, s[0]) {
      var tail := InsertBy(x, s[1..], le);
      InsertByKeepsDistinct(x, s[1..], le);
      InsertByPermutes(x, s[1..], le);
      assert s[0] !in s[1..];
      assert s[0] != x && s[0] !in multiset(s[1..]);
      assert s[0] !in multiset(tail);
      var r := [s[0]] + tail;
      forall i, j | 0 <= i < j < |r| ensures r[i] != r[j] {
        if i > 0 {
          assert r[i] == tail[i - 1] && r[j] == tail[j - 1];
        } else {
          assert r[j] in tail;
        }
      }
    }
  }

  /** Sorting a duplicate-free sequence gives a duplicate-free sequence. */
  lemma {:induction false} SortByKeepsDistinct<T>(s: seq<T>, le: (T, T) -> bool)
    requires NoDuplicates(s)
    ensures NoDuplicates(SortBy(s, le))
    decreases |s|
  {
    if s != [] {
      var sorted := SortBy(s[1..], le);
      assert NoDuplicates(s[1..]) by {
        forall i, j | 0 <= i < j < |s[1..]| ensures s[1..][i] != s[1..][j] {
          assert s[1..][i] == s[i + 1] && s[1..][j] == s[j + 1];
        }
      }
      SortByKeepsDistinct(s[1..], le);
      SortByPermutes(s[1..], le);
      forall k | 0 <= k < |s[1..]| ensures s[1..][k] != s[0] {
        assert s[1..][k] == s[k + 1];
      }
      assert s[0] !in multiset(s[1..]);
      assert s[0] !in multiset(sorted);
      InsertByKeepsDistinct(s[0], sorted, le);
    }
  }

  /** Membership is unchanged by sorting. */
  lemma SortByMembers<T>(s: seq<T>, le: (T, T) -> bool)
    ensures forall x :: x in SortBy(s, le) <==> x in s
  {
    SortByPermutes(s, le);
    forall x ensures x in SortBy(s, le) <==> x in s {
      assert x in SortBy(s, le) <==> x in multiset(SortBy(s, le));
      assert x in s <==> x in multiset(s);
    }
  }
}

=== FILE: sheets.dfy ===
/**
 * The spreadsheet data layer (`src/lib/sheets.ts`): two tables, "Referrals"
 * (columns A to L) and "Users" (columns A to C), reached through the Sheets
 * API. The in-memory parts (first-match lookup by email, the de-duplicated
 * department list, the row write) are functions; the store itself is the class
 * `Spreadsheet`, whose methods are the exported data functions.
 */
module Sheets {
  import opened Wrappers
  import opened Seqs
  import opened Types

  type Row = seq<string>
  type Table = seq<Row>

  /** `Referrals!A:L`: id .. updatedAt. */
  const ReferralColumns: nat := 12
  /** `Users!A:C`: email, name, department. */
  const UserColumns: nat := 3
  /** `Users!C:C`: the department column. */
  const DepartmentColumn: nat := 2

  const MissingSheetId := "Missing GOOGLE_SHEET_ID"
  /** What the Sheets API answers when a range names a row before row 1 or is narrower than the values. */
  const InvalidRange := "Unable to parse range"

  /** `row[i]` as the code reads it: a cell past the end of the row (`undefined`) is "". */
  function Cell(row: Row, i: nat): string {
    if i < |row| then row[i] else ""
  }

  /** The first `n` cells of a row: what a range ending at column `n` returns of it. */
  function Columns(row: Row, n: nat): Row {
    if |row| <= n then row else row[..n]
  }

  /** Every row of a table cut to its first `n` cells. */
  function Project(t: Table, n: nat): Table {
    seq(|t|, i requires 0 <= i < |t| => Columns(t[i], n))
  }

  /** `response.data.values`: the API leaves it out when the range holds no rows. */
  function Values(t: Table): Option<Table> {
    if t == [] then None else Some(t)
  }

  /** `row[0] === key`; a row with no cells has no key. */
  predicate HasKey(row: Row, key: string) {
    |row| > 0 && row[0] == key
  }

  /** `rows.findIndex(r => r[0] === key)`: the first row whose first cell is `key`, or -1. */
  function FindIndexByKey(rows: Table, key: string): (i: int)
    ensures -1 <= i < |rows|
    ensures 0 <= i ==> HasKey(rows[i], key)
    ensures 0 <= i ==> forall j :: 0 <= j < i ==> !HasKey(rows[j], key)
    ensures i == -1 <==> forall j :: 0 <= j < |rows| ==> !HasKey(rows[j], key)
  {
    if rows == [] then -1
    else if HasKey(rows[0], key) then 0
    else
      var k := FindIndexByKey(rows[1..], key);
      assert forall j :: 1 <= j < |rows| ==> rows[j] == rows[1..][j - 1];
      if k == -1 then -1 else k + 1
  }

  /** `{ email: row[0], name: row[1], department: row[2] }`. */
  function UserFromRow(row: Row): (u: UserRecord)
    ensures |row| >= UserColumns ==> [u.email, u.name, u.department] == row[..UserColumns]
    ensures |row| <= DepartmentColumn ==> u.department == ""
  {
    UserRecord(Cell(row, 0), Cell(row, 1), Cell(row, 2))
  }

  /**
   * The in-memory part of `getUserByEmail`: null when the table is absent or
   * no row matches; otherwise the record of the FIRST row whose cell A equals
   * `email` exactly.
   */
  function LookupUser(users: Option<Table>, email: string): (u: Option<UserRecord>)
    ensures u.Some? <==> users.Some? && exists j :: 0 <= j < |users.value| && HasKey(users.value[j], email)
    ensures u.Some? ==> u.value.email == email
    ensures u.Some? ==> exists j ::
      && 0 <= j < |users.value| && HasKey(users.value[j], email)
      && (forall k :: 0 <= k < j ==> !HasKey(users.value[k], email))
      && u.value == UserFromRow(users.value[j])
  {
    if users.None? then None
    else
      var i := FindIndexByKey(users.value, email);
      if i < 0 then None else Some(UserFromRow(users.value[i]))
  }

  /** `slice(1)`: the table without its header row. */
  function DropHeader(t: Table): Table {
    if t == [] then [] else t[1..]
  }

  /**
   * The in-memory part of `getAllDepartments`: `[]` when the column is absent;
   * otherwise every value below the header, each once.
   */
  function DepartmentList(column: Option<Table>): (ds: seq<string>)
    ensures column.None? ==> ds == []
    ensures NoDuplicates(ds)
    ensures column.Some? ==> forall d :: d in ds <==> exists k :: 1 <= k < |column.value| && d in column.value[k]
  {
    if column.None? then []
    else
      var t := column.value;
      assert forall k :: 1 <= k < |t| ==> t[k] == DropHeader(t)[k - 1];
      Distinct(Flatten(DropHeader(t)))
  }

  /** The department list keeps the order in which departments first appear below the header. */
  lemma DepartmentsInFirstOccurrenceOrder(column: Table)
    ensures var below, ds := Flatten(DropHeader(column)), DepartmentList(Some(column));
      forall i, j :: 0 <= i < j < |ds| ==> FirstIndex(below, ds[i]) < FirstIndex(below, ds[j])
  {
    DistinctKeepsFirstOccurrenceOrder(Flatten(DropHeader(column)));
  }

  /**
   * `Users!C:C`: each row reduced to its department cell, or to no cell when
   * column C is missing or empty (the Sheets API leaves empty cells out).
   */
  function DepartmentCells(users: Table): (column: Table)
    ensures |column| == |users|
    ensures forall i :: 0 <= i < |users| ==>
      column[i] == if Cell(users[i], DepartmentColumn) == "" then [] else [Cell(users[i], DepartmentColumn)]
  {
    seq(|users|, i requires 0 <= i < |users| =>
      if |users[i]| > DepartmentColumn && users[i][DepartmentColumn] != "" then [users[i][DepartmentColumn]] else [])
  }

  /** No department read from the Users table is empty. */
  lemma {:induction false} NoEmptyDepartment(users: Table)
    ensures "" !in DepartmentList(Values(DepartmentCells(users)))
  {
    var column := DepartmentCells(users);
    if column != [] {
      forall k | 1 <= k < |column|
        ensures "" !in column[k]
      {
        assert column[k] == if Cell(users[k], DepartmentColumn) == "" then [] else [Cell(users[k], DepartmentColumn)];
      }
    }
  }

  /** `written` over `stored` from column A: the cells of `stored` past `|written|` stay. */
  function Overlay(stored: Row, written: Row): (r: Row)
    ensures |r| == if |stored| > |written| then |stored| else |written|
    ensures r[..|written|] == written
    ensures forall k :: |written| <= k < |stored| ==> r[k] == stored[k]
  {
    if |stored| > |written| then written + stored[|written|..] else written
  }

  /**
   * The table after the range `A<rowIndex>:L<rowIndex>` is written with `row`:
   * exactly sheet row `rowIndex` (1-based) changes; a row past the end extends
   * the table with empty rows.
   */
  function WriteRow(rows: Table, rowIndex: nat, row: Row): (t: Table)
    requires 1 <= rowIndex
    ensures |t| == if rowIndex <= |rows| then |rows| else rowIndex
    ensures Columns(t[rowIndex - 1], |row|) == row
    ensures rowIndex <= |rows| ==> t[rowIndex - 1] == Overlay(rows[rowIndex - 1], row)
    ensures rowIndex > |rows| ==> t[rowIndex - 1] == row
    ensures forall k :: 0 <= k < |rows| && k != rowIndex - 1 ==> t[k] == rows[k]
    ensures forall k :: |rows| <= k < rowIndex - 1 ==> t[k] == []
  {
    if rowIndex <= |rows| then rows[rowIndex - 1 := Overlay(rows[rowIndex - 1], row)]
    else rows + seq(rowIndex - 1 - |rows|, _ => []) + [row]
  }

  /** A value copy of the workbook and its setting. */
  datatype Store = Store(sheetId: string, referrals: Table, users: Table)

  /**
   * The remote workbook and the `GOOGLE_SHEET_ID` setting ("" when unset).
   * Every data function throws before touching a table when the id is unset.
   */
  class Spreadsheet {
    var sheetId: string
    var referrals: Table
    var users: Table

    /** The whole state, for "nothing changed" statements. */
    function Contents(): Store
      reads this
    {
      Store(sheetId, referrals, users)
    }

    constructor (sheetId: string, referrals: Table, users: Table)
      ensures this.sheetId == sheetId && this.referrals == referrals && this.users == users
    {
      this.sheetId := sheetId;
      this.referrals := referrals;
      this.users := users;
    }

    /** `getRows`: the values of `Referrals!A:L`. */
    method GetRows() returns (r: Result<Option<Table>>)
      ensures sheetId == "" ==> r == Err(MissingSheetId)
      ensures sheetId != "" ==> r.Ok? && (r.value.None? <==> referrals == [])
      ensures sheetId != "" && r.value.Some? ==>
        && |r.value.value| == |referrals|
        && forall k :: 0 <= k < |referrals| ==> r.value.value[k] == Columns(referrals[k], ReferralColumns)
    {
      if sheetId == "" {
        return Err(MissingSheetId);
      }
      r := Ok(Values(Project(referrals, ReferralColumns)));
    }

    /** `appendRow`: one row added after the last row of the Referrals table. */
    method AppendRow(row: Row) returns (o: Outcome)
      modifies this
      ensures sheetId == old(sheetId) && users == old(users)
      ensures old(sheetId) == "" ==> o == Fail(MissingSheetId) && referrals == old(referrals)
      ensures old(sheetId) != "" ==> o == Pass && referrals == old(referrals) + [row]
    {
      if sheetId == "" {
        return Fail(MissingSheetId);
      }
      referrals := referrals + [row];
      o := Pass;
    }

    /** `updateRow`: writes `row` to `Referrals!A<rowIndex>:L<rowIndex>`. */
    method UpdateRow(rowIndex: int, row: Row) returns (o: Outcome)
      modifies this
      ensures sheetId == old(sheetId) && users == old(users)
      ensures old(sheetId) == "" ==> o == Fail(MissingSheetId) && referrals == old(referrals)
      ensures old(sheetId) != "" && (rowIndex < 1 || |row| > ReferralColumns) ==>
        o == Fail(InvalidRange) && referrals == old(referrals)
      ensures old(sheetId) != "" && 1 <= rowIndex && |row| <= ReferralColumns ==>
        o == Pass && referrals == WriteRow(old(referrals), rowIndex, row)
    {
      if sheetId == "" {
        return Fail(MissingSheetId);
      }
      if rowIndex < 1 || |row| > ReferralColumns {
        return Fail(InvalidRange);
      }
      referrals := WriteRow(referrals, rowIndex, row);
      o := Pass;
    }

    /** `getUserByEmail`: first match of `email` in `Users!A:C`, or null. */
    method GetUserByEmail(email: string) returns (r: Result<Option<UserRecord>>)
      ensures sheetId == "" ==> r == Err(MissingSheetId)
      ensures sheetId != "" ==> r.Ok? && r.value == LookupUser(Values(Project(users, UserColumns)), email)
    {
      if sheetId == "" {
        return Err(MissingSheetId);
      }
      r := Ok(LookupUser(Values(Project(users, UserColumns)), email));
    }

    /** `getAllDepartments`: the distinct values of `Users!C:C` below the header. */
    method GetAllDepartments() returns (r: Result<seq<string>>)
      ensures sheetId == "" ==> r == Err(MissingSheetId)
      ensures sheetId != "" ==> r.Ok? && r.value == DepartmentList(Values(DepartmentCells(users)))
      ensures sheetId != "" ==> "" !in r.value
    {
      if sheetId == "" {
        return Err(MissingSheetId);
      }
      NoEmptyDepartment(users);
      r := Ok(DepartmentList(Values(DepartmentCells(users))));
    }

    /** `createUser`: appends exactly `[email, name, department]` to Users and returns that triple. */
    method CreateUser(email: string, name: string, department: string) returns (r: Result<UserRecord>)
      modifies this
      ensures sheetId == old(sheetId) && referrals == old(referrals)
      ensures old(sheetId) == "" ==> r == Err(MissingSheetId) && users == old(users)
      ensures old(sheetId) != "" ==>
        r == Ok(UserRecord(email, name, department)) && users == old(users) + [[email, name, department]]
    {
      if sheetId == "" {
        return Err(MissingSheetId);
      }
      users := users + [[email, name, department]];
      r := Ok(UserRecord(email, name, department));
    }
  }
}

=== FILE: text.dfy ===
/**
 * String helpers with JavaScript's meaning: `String.prototype.trim`, the
 * decimal rendering of a non-negative integer in a template literal, and the
 * default ordering `Array.prototype.sort` uses for strings.
 */
module Text {

  /** ECMAScript WhiteSpace and LineTerminator code points, the ones `trim` removes. */
  predicate IsJsWhiteSpace(c: char) {
    var n := c as int;
    || (0x09 <= n <= 0x0D) || n == 0x20 || n == 0xA0 || n == 0x1680
    || (0x2000 <= n <= 0x200A) || n == 0x2028 || n == 0x2029 || n == 0x202F
    || n == 0x205F || n == 0x3000 || n == 0xFEFF
  }

  /** Drops leading white space. */
  function TrimStart(s: string): (r: string)
    ensures |r| <= |s| && r == s[|s| - |r|..]
    ensures forall i :: 0 <= i < |s| - |r| ==> IsJsWhiteSpace(s[i])
    ensures r != [] ==> !IsJsWhiteSpace(r[0])
    ensures r == [] <==> forall i :: 0 <= i < |s| ==> IsJsWhiteSpace(s[i])
  {
    if s != [] && IsJsWhiteSpace(s[0]) then
      var r := TrimStart(s[1..]);
      assert forall i :: 1 <= i < |s| ==> s[i] == s[1..][i - 1];
      r
    else s
  }

  /** Drops trailing white space. */
  function TrimEnd(s: string): (r: string)
    ensures |r| <= |s| && r == s[..|r|]
    ensures forall i :: |r| <= i < |s| ==> IsJsWhiteSpace(s[i])
    ensures r != [] ==> !IsJsWhiteSpace(r[|r| - 1])
    ensures r == [] <==> forall i :: 0 <= i < |s| ==> IsJsWhiteSpace(s[i])
  {
    if s != [] && IsJsWhiteSpace(s[|s| - 1]) then TrimEnd(s[..|s| - 1]) else s
  }

  /** `s.trim()`: white space removed from both ends, and nothing else. */
  function Trim(s: string): (r: string)
    ensures exists i, j :: 0 <= i <= j <= |s| && r == s[i..j] && Trimmed(s, i, j)
    ensures r == "" <==> forall i :: 0 <= i < |s| ==> IsJsWhiteSpace(s[i])
    ensures r != "" ==> !IsJsWhiteSpace(r[0]) && !IsJsWhiteSpace(r[|r| - 1])
  {
    var t := TrimStart(s);
    var r := TrimEnd(t);
    TrimEndOfTrimStart(s, t, r);
    r
  }

  /**
   * A start cut `t` of `s` followed by an end cut `r` of `t` leaves a slice of
   * `s` with white space on both sides and none at its own ends.
   */
  lemma TrimEndOfTrimStart(s: string, t: string, r: string)
    requires |t| <= |s| && t == s[|s| - |t|..]
    requires forall k :: 0 <= k < |s| - |t| ==> IsJsWhiteSpace(s[k])
    requires t != [] ==> !IsJsWhiteSpace(t[0])
    requires |r| <= |t| && r == t[..|r|]
    requires forall k :: |r| <= k < |t| ==> IsJsWhiteSpace(t[k])
    requires r != [] ==> !IsJsWhiteSpace(r[|r| - 1])
    ensures exists i, j :: 0 <= i <= j <= |s| && r == s[i..j] && Trimmed(s, i, j)
    ensures r == "" <==> forall k :: 0 <= k < |s| ==> IsJsWhiteSpace(s[k])
    ensures r != "" ==> !IsJsWhiteSpace(r[0]) && !IsJsWhiteSpace(r[|r| - 1])
  {
    var i, j := |s| - |t|, |s| - |t| + |r|;
    forall k | j <= k < |s|
      ensures IsJsWhiteSpace(s[k])
    {
      assert s[k] == t[k - i];
    }
    assert r == s[i..j] && Trimmed(s, i, j);
    if r != "" {
      assert r[0] == t[0];
    }
  }

  /** Every character of `s` before `i` and from `j` on is white space. */
  predicate Trimmed(s: string, i: nat, j: nat)
    requires i <= j <= |s|
  {
    && (forall k :: 0 <= k < i ==> IsJsWhiteSpace(s[k]))
    && (forall k :: j <= k < |s| ==> IsJsWhiteSpace(s[k]))
  }

  /** `!s.trim()`: the field holds white space only. */
  predicate IsBlank(s: string) {
    forall i :: 0 <= i < |s| ==> IsJsWhiteSpace(s[i])
  }

  /** A field is blank exactly when trimming leaves nothing of it. */
  lemma BlankIffTrimmedEmpty(s: string)
    ensures IsBlank(s) <==> Trim(s) == ""
  {
  }

  /** The decimal digit for `d`. */
  function DigitChar(d: nat): (c: char)
    requires d < 10
    ensures '0' <= c <= '9' && c as int - '0' as int == d
  {
    ('0' as int + d) as char
  }

  predicate IsDigits(s: string) {
    forall i :: 0 <= i < |s| ==> '0' <= s[i] <= '9'
  }

  /** `${n}` for a non-negative integer: its decimal digits, most significant first. */
  function Decimal(n: nat): (s: string)
    ensures |s| >= 1 && IsDigits(s)
    decreases n
  {
    if n < 10 then [DigitChar(n)] else Decimal(n / 10) + [DigitChar(n % 10)]
  }

  /** The number a string of decimal digits denotes. */
  function ParseDecimal(s: string): nat
    requires IsDigits(s)
  {
    if s == [] then 0 else ParseDecimal(s[..|s| - 1]) * 10 + (s[|s| - 1] as int - '0' as int)
  }

  /** Reading back the digits of `n` gives `n`. */
  lemma {:induction false} DecimalRoundTrip(n: nat)
    ensures ParseDecimal(Decimal(n)) == n
    decreases n
  {
    if n >= 10 {
      var s := Decimal(n);
      assert s[..|s| - 1] == Decimal(n / 10);
      DecimalRoundTrip(n / 10);
    }
  }

  /** Distinct numbers render as distinct strings. */
  lemma DecimalInjective(m: nat, n: nat)
    requires m != n
    ensures Decimal(m) != Decimal(n)
  {
    DecimalRoundTrip(m);
    DecimalRoundTrip(n);
  }

  /**
   * The default order of `Array.prototype.sort` on strings: lexicographic by
   * character, a proper prefix first.
   */
  predicate StrLe(a: string, b: string) {
    a == [] || (b != [] && (a[0] < b[0] || (a[0] == b[0] && StrLe(a[1..], b[1..]))))
  }

  lemma {:induction false} StrLeTotal(a: string, b: string)
    ensures StrLe(a, b) || StrLe(b, a)
  {
    if a != [] && b != [] && a[0] == b[0] {
      StrLeTotal(a[1..], b[1..]);
    }
  }

  lemma {:induction false} StrLeTransitive(a: string, b: string, c: string)
    requires StrLe(a, b) && StrLe(b, c)
    ensures StrLe(a, c)
  {
    if a != [] && a[0] == b[0] && b[0] == c[0] {
      StrLeTransitive(a[1..], b[1..], c[1..]);
    }
  }

  lemma {:induction false} StrLeAntisymmetric(a: string, b: string)
    requires StrLe(a, b) && StrLe(b, a)
    ensures a == b
  {
    if a != [] {
      StrLeAntisymmetric(a[1..], b[1..]);
    }
  }
}

=== FILE: types.dfy ===
/** The records the handlers and components exchange (`src/types.ts` and the JSON bodies). */
module Types {
  import opened Wrappers

  /** One referral: a patient routed from a referring department to a target department. */
  datatype Referral = Referral(
    id: string,
    ward: string,
    bed: string,
    referringDepartment: string,
    referringClinician: string,
    targetDepartment: string,
    notes: string,
    status: string,
    feedback: string,
    feedbackClinician: string,
    createdAt: string,
    updatedAt: string)

  /** The three status labels the code writes; the column itself may hold any string. */
  const Pending := "Pending"
  const Viewed := "Viewed"
  const Completed := "Completed"

  /** What the new-referral form emits. */
  datatype NewReferralInput = NewReferralInput(ward: string, bed: string, targetDepartment: string, notes: string)

  /** The body of a POST to the referrals route. An absent JSON field is "". */
  datatype NewReferralRequest = NewReferralRequest(
    ward: string,
    bed: string,
    referringDepartment: string,
    referringClinician: string,
    targetDepartment: string,
    notes: string)

  /**
   * The signed-in user as the server session and the page see it. An absent
   * name is ""; an absent department is `None`, which equals no string.
   */
  datatype SessionUser = SessionUser(name: string, department: Option<string>)

  /** A row of the Users table as the lookups return it. */
  datatype UserRecord = UserRecord(email: string, name: string, department: string)

  /** A JSON response body. */
  datatype Payload =
    | Message(text: string)           // { message: ... }
    | ErrorText(text: string)         // { error: ... }
    | ReferralList(items: seq<Referral>)
    | UserData(user: UserRecord)

  /** An HTTP response: status code and body. */
  datatype Response = Response(status: int, payload: Payload)
}

=== FILE: user_onboarding.dfy ===
/**
 * The registration stepper (`src/components/UserOnboarding.tsx`): steps
 * 0 Welcome, 1 Profile Setup, 2 Department Selection, 3 Complete, with
 * validation on Next, a guarded Submit, and the department option list.
 */
module Onboarding {
  import opened Wrappers
  import opened Seqs
  import opened Text
  import opened Types

  /** The built-in department names offered before (and besides) the fetched ones. */
  const CommonDepartments: seq<string> := [
    "Emergency Department", "Intensive Care Unit", "Cardiology", "Neurology", "Orthopedics",
    "General Surgery", "Internal Medicine", "Pediatrics", "Obstetrics & Gynecology", "Psychiatry",
    "Radiology", "Anesthesiology", "Pathology", "Oncology", "Nephrology", "Dermatology",
    "Ophthalmology", "ENT", "Pharmacy", "Physical Therapy", "Social Work", "Administration"]

  const FillRequired := "Please fill in all required fields"
  const SelectDepartment := "Please select a department"
  const RegistrationFailed := "Failed to register user"

  /** The default string order, as a comparator for `SortBy`. */
  function Alphabetical(): (le: (string, string) -> bool)
    ensures TotalPreorder(le)
    ensures forall a, b :: le(a, b) == StrLe(a, b)
  {
    var le := (a: string, b: string) => StrLe(a, b);
    StrLeIsTotalPreorder();
    le
  }

  lemma StrLeIsTotalPreorder()
    ensures TotalPreorder((a: string, b: string) => StrLe(a, b))
  {
    forall a: string, b: string ensures StrLe(a, b) || StrLe(b, a) {
      StrLeTotal(a, b);
    }
    forall a: string, b: string, c: string | StrLe(a, b) && StrLe(b, c) ensures StrLe(a, c) {
      StrLeTransitive(a, b, c);
    }
  }

  /** `[...new Set([...commonDepartments, ...existingDepts])].sort()`. */
  function MergeDepartments(fetched: seq<string>): (ds: seq<string>)
    ensures forall d :: d in ds <==> d in CommonDepartments || d in fetched
    ensures NoDuplicates(ds)
    ensures forall i, j :: 0 <= i < j < |ds| ==> StrLe(ds[i], ds[j]) && ds[i] != ds[j]
  {
    var le := Alphabetical();
    var union := Distinct(CommonDepartments + fetched);
    SortByMembers(union, le);
    SortByKeepsDistinct(union, le);
    SortBySorted(union, le);
    SortBy(union, le)
  }

  /** Every element precedes every later one in the default string order, and none repeats. */
  predicate StrictlyAlphabetical(ds: seq<string>) {
    forall i, j :: 0 <= i < j < |ds| ==> StrLe(ds[i], ds[j]) && ds[i] != ds[j]
  }

  /** Two strictly alphabetical lists with the same members are the same list. */
  lemma {:induction false} StrictlyAlphabeticalIsUnique(a: seq<string>, b: seq<string>)
    requires StrictlyAlphabetical(a) && StrictlyAlphabetical(b)
    requires forall d :: d in a <==> d in b
    ensures a == b
    decreases |a|
  {
    if a != [] {
      assert a[0] in b;
      assert b != [] && b[0] in a;
      StrLeTotal(a[0], a[0]);
      var i :| 0 <= i < |a| && a[i] == b[0];
      var j :| 0 <= j < |b| && b[j] == a[0];
      assert StrLe(a[0], b[0]) by {
        if i > 0 {
          assert StrLe(a[0], a[i]);
        }
      }
      assert StrLe(b[0], a[0]) by {
        if j > 0 {
          assert StrLe(b[0], b[j]);
        }
      }
      StrLeAntisymmetric(a[0], b[0]);
      assert a == [a[0]] + a[1..] && b == [b[0]] + b[1..];
      forall d
        ensures d in a[1..] <==> d in b[1..]
      {
        if d in a[1..] {
          var k :| 0 <= k < |a[1..]| && a[1..][k] == d;
          assert a[k + 1] == d && a[0] != a[k + 1];
          assert d in b && d != b[0];
        }
        if d in b[1..] {
          var k :| 0 <= k < |b[1..]| && b[1..][k] == d;
          assert b[k + 1] == d && b[0] != b[k + 1];
          assert d in a && d != a[0];
        }
      }
      StrictlyAlphabeticalIsUnique(a[1..], b[1..]);
    }
  }

  /**
   * The option list depends only on which departments the Users sheet holds,
   * not on the order or repetition in which they were fetched.
   */
  lemma MergeIgnoresFetchOrder(fetched: seq<string>, other: seq<string>)
    requires forall d :: d in fetched <==> d in other
    ensures MergeDepartments(fetched) == MergeDepartments(other)
  {
    StrictlyAlphabeticalIsUnique(MergeDepartments(fetched), MergeDepartments(other));
  }

  /** The Users-sheet departments only add options; the built-in ones are always there. */
  lemma MergeKeepsCommonDepartments(fetched: seq<string>)
    ensures forall d :: d in CommonDepartments ==> d in MergeDepartments(fetched)
    ensures |MergeDepartments(fetched)| >= |CommonDepartments|
  {
    var ds := MergeDepartments(fetched);
    var common := set d | d in CommonDepartments;
    var listed := set d | d in ds;
    assert common <= listed;
    assert |common| == |CommonDepartments| by {
      CommonDepartmentsAreDistinct();
      DistinctCardinality(CommonDepartments);
    }
    DistinctCardinality(ds);
    assert |common| <= |listed| by {
      SubsetCardinality(common, listed);
    }
  }

  lemma CommonDepartmentsAreDistinct()
    ensures NoDuplicates(CommonDepartments)
  {
  }

  /** A duplicate-free sequence has as many elements as its set of members. */
  lemma {:induction false} DistinctCardinality<T>(s: seq<T>)
    requires NoDuplicates(s)
    ensures |set x | x in s| == |s|
  {
    if s != [] {
      var tail := s[1..];
      assert NoDuplicates(tail) by {
        forall i, j | 0 <= i < j < |tail| ensures tail[i] != tail[j] {
          assert tail[i] == s[i + 1] && tail[j] == s[j + 1];
        }
      }
      DistinctCardinality(tail);
      assert s[0] !in tail by {
        forall k | 0 <= k < |tail| ensures tail[k] != s[0] {
          assert tail[k] == s[k + 1];
        }
      }
      assert (set x | x in s) == (set x | x in tail) + {s[0]};
    }
  }

  lemma SubsetCardinality<T>(a: set<T>, b: set<T>)
    requires a <= b
    ensures |a| <= |b|
  {
    assert b == a + (b - a);
  }

  /** How a non-demo registration request ended. */
  datatype RegisterReply =
    | Registered(user: UserRecord)   // 200 or 201 with the stored record
    | Rejected(error: string)        // any other status; `error` is the body's `error` field, "" if absent
    | Thrown(message: string)        // the request or the JSON parse threw

  /** The text shown for a failed registration. */
  function RejectionMessage(reply: RegisterReply): string {
    match reply
    case Registered(_) => ""
    case Rejected(e) => if e != "" then e else RegistrationFailed
    case Thrown(m) => m
  }

  class Onboarding {
    const userEmail: string
    const userName: string
    var activeStep: int
    var name: string
    var email: string
    var department: string
    var loading: bool
    var error: Option<string>
    var departments: seq<string>
    /** The record passed to `onComplete` once registration succeeded. */
    var completedWith: Option<UserRecord>

    /** The step is one of the four the stepper shows. */
    predicate Valid()
      reads this
    {
      0 <= activeStep <= 3
    }

    constructor (userEmail: string, userName: string)
      ensures Valid() && activeStep == 0
      ensures this.userEmail == userEmail && this.userName == userName
      ensures name == userName && email == userEmail && department == ""
      ensures !loading && error.None? && departments == CommonDepartments && completedWith.None?
    {
      this.userEmail := userEmail;
      this.userName := userName;
      activeStep := 0;
      name := userName;
      email := userEmail;
      department := "";
      loading := false;
      error := None;
      departments := CommonDepartments;
      completedWith := None;
    }

    /** The effect on opening: name and email come back from the props; the department is kept. */
    method Open()
      modifies this
      ensures name == userName && email == userEmail && department == old(department)
      ensures activeStep == old(activeStep) && error == old(error) && loading == old(loading)
      ensures departments == old(departments) && completedWith == old(completedWith)
    {
      name := userName;
      email := userEmail;
    }

    /** The department fetch: a successful reply replaces the options with the merged list. */
    method DepartmentsFetched(reply: Option<seq<string>>)
      modifies this
      ensures departments == if reply.Some? then MergeDepartments(reply.value) else old(departments)
      ensures activeStep == old(activeStep) && name == old(name) && email == old(email)
      ensures department == old(department) && error == old(error) && loading == old(loading)
      ensures completedWith == old(completedWith)
    {
      if reply.Some? {
        departments := MergeDepartments(reply.value);
      }
    }

    /** Typing a name. */
    method EditName(value: string)
      modifies this
      ensures name == value && email == old(email) && department == old(department)
      ensures activeStep == old(activeStep) && error == old(error) && loading == old(loading)
      ensures departments == old(departments) && completedWith == old(completedWith)
    {
      name := value;
    }

    /** Typing an email: the field is disabled when the account supplied one. */
    method EditEmail(value: string)
      modifies this
      ensures email == if userEmail == "" then value else old(email)
      ensures name == old(name) && department == old(department)
      ensures activeStep == old(activeStep) && error == old(error) && loading == old(loading)
      ensures departments == old(departments) && completedWith == old(completedWith)
    {
      if userEmail == "" {
        email := value;
      }
    }

    /** Choosing or typing a department; clearing the box gives "". */
    method ChooseDepartment(value: Option<string>)
      modifies this
      ensures department == if value.Some? then value.value else ""
      ensures name == old(name) && email == old(email)
      ensures activeStep == old(activeStep) && error == old(error) && loading == old(loading)
      ensures departments == old(departments) && completedWith == old(completedWith)
    {
      department := if value.Some? then value.value else "";
    }

    /**
     * Whether `handleNext` refuses: a blank name or email at step 1, a blank
     * department at step 2. Next is rendered only below step 2, so the second
     * check never fires from the stepper.
     */
    predicate NextRefused()
      reads this
      ensures NextRefused() ==> activeStep == 1 || activeStep == 2
      ensures NextRefused() && activeStep == 1 ==> IsBlank(name) || IsBlank(email)
    {
      || (activeStep == 1 && (IsBlank(name) || IsBlank(email)))
      || (activeStep == 2 && IsBlank(department))
    }

    /**
     * `handleNext`, behind the Next button (rendered at steps 0 and 1,
     * disabled while loading): when refused, the step stays and the error
     * asks for the missing fields; otherwise the error clears and the step
     * advances by one.
     */
    method HandleNext()
      requires Valid() && activeStep < 2 && !loading
      modifies this
      ensures Valid()
      ensures old(NextRefused()) ==> activeStep == old(activeStep) == 1 && error == Some(FillRequired)
      ensures !old(NextRefused()) ==> activeStep == old(activeStep) + 1 && error.None?
      ensures name == old(name) && email == old(email) && department == old(department)
      ensures loading == old(loading) && departments == old(departments) && completedWith == old(completedWith)
    {
      var refused := NextRefused();
      if refused {
        error := Some(if activeStep == 1 then FillRequired else SelectDepartment);
      } else {
        error := None;
        activeStep := activeStep + 1;
      }
    }

    /** `handleBack`, behind the Back button (steps 1 and 2, disabled while loading): one step back, error cleared. */
    method HandleBack()
      requires Valid() && 0 < activeStep < 3 && !loading
      modifies this
      ensures Valid() && activeStep == old(activeStep) - 1 && error.None?
      ensures name == old(name) && email == old(email) && department == old(department)
      ensures loading == old(loading) && departments == old(departments) && completedWith == old(completedWith)
    {
      activeStep := activeStep - 1;
      error := None;
    }

    /** Whether the Complete Registration button is enabled. */
    predicate SubmitEnabled()
      reads this
    {
      !loading && !IsBlank(name) && !IsBlank(email) && !IsBlank(department)
    }

    /**
     * `handleSubmit`, behind the Complete Registration button (step 2, enabled
     * only as `SubmitEnabled` says): in demo mode, or when the register call
     * returns the user, the stepper moves to step 3 and the record is handed
     * on; on failure the step stays and the error is shown. Loading ends
     * either way. `request` is the body posted to the register route (none in
     * demo mode); it always passes that route's 400 check.
     */
    method HandleSubmit(demoMode: bool, reply: RegisterReply) returns (request: Option<UserRecord>)
      requires Valid() && activeStep == 2 && SubmitEnabled()
      modifies this
      ensures Valid() && !loading
      ensures demoMode ==> request.None?
      ensures !demoMode ==>
        && request == Some(UserRecord(email, name, department))
        && email != "" && name != "" && department != ""
      ensures demoMode ==>
        activeStep == 3 && error.None? && completedWith == Some(UserRecord(email, name, department))
      ensures !demoMode && reply.Registered? ==>
        activeStep == 3 && error.None? && completedWith == Some(reply.user)
      ensures !demoMode && !reply.Registered? ==>
        activeStep == 2 && error == Some(RejectionMessage(reply)) && completedWith == old(completedWith)
      ensures name == old(name) && email == old(email) && department == old(department)
      ensures departments == old(departments)
    {
      EnabledSubmitPassesRouteValidation(name, email, department);
      loading := true;
      error := None;
      if demoMode {
        request := None;
        activeStep := 3;
        completedWith := Some(UserRecord(email, name, department));
      } else {
        request := Some(UserRecord(email, name, department));
        if reply.Registered? {
          activeStep := 3;
          completedWith := Some(reply.user);
        } else {
          error := Some(RejectionMessage(reply));
        }
      }
      loading := false;
    }
  }

  /**
   * The register route's 400 check cannot fire for a form Submit allows:
   * every field that is non-blank after trimming is non-empty.
   */
  lemma EnabledSubmitPassesRouteValidation(name: string, email: string, department: string)
    requires !IsBlank(name) && !IsBlank(email) && !IsBlank(department)
    ensures name != "" && email != "" && department != ""
  {
  }
}

=== FILE: users_route.dfy ===
/** User lookup (`src/app/api/users/route.ts`): GET `?email=` answers with the stored user. */
module UsersRoute {
  import opened Wrappers
  import opened Types
  import opened Sheets

  /**
   * GET: 400 when the `email` query parameter is absent or empty; 404 when
   * no Users row has it; the stored record otherwise; 500 when the lookup
   * throws. No session is required.
   */
  method GetUser(db: Spreadsheet, email: Option<string>) returns (resp: Response)
    ensures email.None? || email.value == "" ==> resp == Response(400, ErrorText("Email parameter is required"))
    ensures email.Some? && email.value != "" && db.sheetId == "" ==>
      resp == Response(500, ErrorText("Failed to lookup user"))
    ensures email.Some? && email.value != "" && db.sheetId != "" ==>
      var u := LookupUser(Values(Project(db.users, UserColumns)), email.value);
      && (u.None? ==> resp == Response(404, ErrorText("User not found")))
      && (u.Some? ==> resp == Response(200, UserData(u.value)) && u.value.email == email.value)
  {
    if email.None? || email.value == "" {
      return Response(400, ErrorText("Email parameter is required"));
    }
    var user := db.GetUserByEmail(email.value);
    if user.Err? {
      return Response(500, ErrorText("Failed to lookup user"));
    }
    if user.value.None? {
      return Response(404, ErrorText("User not found"));
    }
    resp := Response(200, UserData(user.value.value));
  }
}

=== FILE: view_referral_modal.dfy ===
/**
 * The referral detail dialog (`src/components/ViewReferralModal.tsx`): who
 * may edit feedback or complete a referral, and the record each button
 * hands to the page.
 */
module ViewReferral {
  import opened Wrappers
  import opened Types
  import opened Dashboard

  /** `canEditFeedback`: the user's department is the target and the referral is still open. */
  predicate CanEditFeedback(r: Referral, userDepartment: Option<string>)
    ensures CanEditFeedback(r, userDepartment) ==> !InTab(r, 3, userDepartment)
    ensures CanEditFeedback(r, userDepartment) && r.feedback == "" ==> InTab(r, 0, userDepartment)
  {
    Mine(r.targetDepartment, userDepartment) && r.status != Completed
  }

  /** `canComplete`: only from the Feedback tab, whatever the status or department. */
  predicate CanComplete(activeTab: int)
    ensures CanComplete(activeTab) ==>
      forall r, d :: InTab(r, activeTab, d) ==> r.feedback != "" && r.status != Completed
  {
    activeTab == 2
  }

  /** The record Save Feedback sends. */
  function WithFeedback(r: Referral, text: string): (u: Referral)
    ensures u.feedback == text && u.status == Viewed
    ensures u.(feedback := r.feedback, status := r.status) == r
  {
    r.(feedback := text, status := Viewed)
  }

  /** The record Mark as Complete sends: the stored feedback, not the editor's text. */
  function AsCompleted(r: Referral): (u: Referral)
    ensures u.status == Completed && u.feedback == r.feedback
    ensures u.(status := r.status) == r
  {
    r.(status := Completed)
  }

  /** Only a referral still open for the target can be given feedback, and saving it leaves it open. */
  lemma SavedFeedbackStaysEditable(r: Referral, userDepartment: Option<string>, text: string)
    requires CanEditFeedback(r, userDepartment)
    ensures CanEditFeedback(WithFeedback(r, text), userDepartment)
    ensures !CanEditFeedback(AsCompleted(WithFeedback(r, text)), userDepartment)
  {
  }

  /** The dialog for one selected referral; `referral` is `None` when nothing is selected. */
  class ViewReferralModal {
    const userDepartment: Option<string>
    const activeTab: int
    var referral: Option<Referral>
    var feedback: string

    constructor (userDepartment: Option<string>, activeTab: int)
      ensures this.userDepartment == userDepartment && this.activeTab == activeTab
      ensures referral.None? && feedback == ""
    {
      this.userDepartment := userDepartment;
      this.activeTab := activeTab;
      referral := None;
      feedback := "";
    }

    /** The effect on `[referral]`: a new referral loads its stored feedback into the editor. */
    method ReferralChanged(r: Option<Referral>)
      modifies this
      ensures referral == r
      ensures r.Some? ==> feedback == r.value.feedback
      ensures r.None? ==> feedback == old(feedback)
    {
      referral := r;
      if r.Some? {
        feedback := r.value.feedback;
      }
    }

    /** Typing in the editor, which is shown only when feedback may be edited. */
    method EditFeedback(text: string)
      modifies this
      ensures referral == old(referral)
      ensures feedback == if referral.Some? && CanEditFeedback(referral.value, userDepartment) then text else old(feedback)
    {
      if referral.Some? && CanEditFeedback(referral.value, userDepartment) {
        feedback := text;
      }
    }

    /** Save Feedback: `None` when the button is not shown (no referral, or feedback not editable). */
    method Save() returns (sent: Option<Referral>)
      ensures sent.Some? <==> referral.Some? && CanEditFeedback(referral.value, userDepartment)
      ensures sent.Some? ==> sent.value == WithFeedback(referral.value, feedback)
    {
      if referral.None? || !CanEditFeedback(referral.value, userDepartment) {
        return None;
      }
      sent := Some(WithFeedback(referral.value, feedback));
    }

    /** Mark as Complete: `None` when the button is not shown (no referral, or not the Feedback tab). */
    method MarkComplete() returns (sent: Option<Referral>)
      ensures sent.Some? <==> referral.Some? && CanComplete(activeTab)
      ensures sent.Some? ==> sent.value == AsCompleted(referral.value)
      ensures sent.Some? ==> sent.value.feedback == referral.value.feedback
    {
      if referral.None? || !CanComplete(activeTab) {
        return None;
      }
      sent := Some(AsCompleted(referral.value));
    }
  }

  /** Text typed but not saved is lost when the referral is completed. */
  method UnsavedEditIsDropped(modal: ViewReferralModal, text: string) returns (sent: Option<Referral>)
    requires modal.referral.Some? && CanEditFeedback(modal.referral.value, modal.userDepartment)
    requires CanComplete(modal.activeTab) && text != modal.referral.value.feedback
    modifies modal
    ensures sent.Some? && sent.value.feedback != text && modal.feedback == text
  {
    modal.EditFeedback(text);
    sent := modal.MarkComplete();
  }
}

=== FILE: wrappers.dfy ===
/** Failure-carrying result types used where the source returns `null`, `undefined` or throws. */
module Wrappers {

  /** A value that may be absent (`null` / `undefined` in the source). */
  datatype Option<+T> = None | Some(value: T)

  /** The value of an awaited call that either returns or throws an `Error` with a message. */
  datatype Result<+T> = Ok(value: T) | Err(message: string)

  /** An awaited call with no useful return value that either completes or throws. */
  datatype Outcome = Pass | Fail(message: string)
}
